=== FILE: README.md ===
# Playwright test-trigger server: a Dafny model

The model covers the core of a small automation server. `POST /trigger-tests` saves the request as the working
test-data file and runs the Playwright suite. It then flattens Playwright's JSON report into a payload with one
record per test, archives the payload under a timestamped name, updates `latest-results.json`, and optionally
posts the payload to a callback URL. Three read-only endpoints serve the stored results: `/results`,
`/results/:filename` and `/results-list`. During a run, the test-data helper loads the working file, picking one
of three formats, and answers lookups by test id.

Modules:

- `Common`: `Option` and `Result`.
- `Strings`: the JavaScript string operations the code relies on: first-occurrence `replace`, `split(' ')[0]`,
  `trim` with the ECMAScript white-space set, `includes`/`startsWith`/`endsWith`, and integer-to-string.
- `Json`: JSON values, with objects as ordered field lists. Property assignment replaces a key in place or
  appends it, as `Object.keys` order does. The module also defines JavaScript truthiness and `String(v)` for
  property keys.
- `TestParser`: `parseResults` from `TestParser.js`. The report file and the screenshot files on disk are inputs.
- `TestDataHelper`: the operations of `utils/TestDataHelper.js`, over the test-data store as a JSON value.
- `Archive`: the archive file name and the `.json` filter with the stable newest-first sort of `/results-list`.
- `Server`: the `index.js` handlers. Each is a pure function over an abstract store of the files the server
  reads and writes. Every I/O effect whose outcome the code branches on is an explicit input: which writes fail,
  what the test runner leaves behind, the clock, and how callback delivery ends.

## Model

| member | source | states |
|---|---|---|
| Strings.ReplaceFirst | TestParser.js:58 | With no occurrence, the string is unchanged. Otherwise only the first occurrence of the pattern is replaced. |
| Strings.Before | TestParser.js:45 | `split(' ')[0]` is the prefix before the first space: it has no space, and it is the whole string or is followed by a space. |
| Strings.TrimShape | utils/TestDataHelper.js:58 | `trim` returns an infix of its argument whose stripped ends are white space and whose result neither starts nor ends with white space. |
| Strings.TrimIgnoresPadding | utils/TestDataHelper.js:58 | Surrounding a string with any white space does not change what `trim` returns. |
| Strings.TrimIdempotent | utils/TestDataHelper.js:58 | Trimming an already trimmed id changes nothing. |
| Strings.IndexOf | TestParser.js:58 | Finds the first occurrence of a pattern, and finds none exactly when the pattern does not occur. |
| Strings.ParseNatToString | utils/TestDataHelper.js:50 | The decimal text of a generated `TC<n>` index reads back as the same number. |
| Strings.NatToStringInjective | utils/TestDataHelper.js:50 | Different numbers render to different decimal text, which keeps the `TC<n>` default keys apart. |
| Json.GetFound | utils/TestDataHelper.js:61-67 | A property read returns the value of a field stored under that key. |
| Json.GetDefined | utils/TestDataHelper.js:61-67 | A property read finds a value exactly when the key is among the object's own keys. |
| Json.Put | utils/TestDataHelper.js:51 | After `obj[k] = v`, reading `k` gives `v` and every other key reads as before. |
| Json.PutKeys | utils/TestDataHelper.js:51 | Assigning to an existing key keeps the key order. A new key is appended at the end. |
| Json.PutKeepsKeysUnique | utils/TestDataHelper.js:51 | Property assignment never creates a duplicate key. |
| TestParser.TestCaseId | TestParser.js:45 | The test-case id is the longest prefix of the spec title that contains no space. |
| TestParser.TestCaseIdOfTitle | TestParser.js:45 | A title `<id> <rest>` yields `<id>` when the id itself contains no space. |
| TestParser.FindScreenshot | TestParser.js:55 | Returns the first attachment named `screenshot`, or none when no attachment has that name. |
| TestParser.CorrectPath | TestParser.js:57-59 | Only the first `test-resultts` in the path becomes `test-results`, and the path gets one character shorter. A path without it is unchanged. |
| TestParser.CorrectPathAtStart | TestParser.js:58 | A path that starts with `test-resultts` has only that occurrence corrected. Whatever follows, later misspellings included, is kept. |
| TestParser.Excerpt | TestParser.js:61-64 | A base64 screenshot longer than 1000 characters is cut to its first 1000 characters plus `...`. A shorter one is kept whole. |
| TestParser.Screenshot | TestParser.js:55-66 | A screenshot is attached exactly when the first `screenshot` attachment has a non-empty path whose corrected form exists on disk. The attached value is the excerpt of that file, never longer than 1003 characters. |
| TestParser.MakeRecord | TestParser.js:17-69 | Id and status come from the title and the last attempt. A non-failed record has no error and no screenshot. A failed record carries the copied error or `null`, plus the screenshot. |
| TestParser.ParseResults | TestParser.js:8-73 | An unreadable report gives no payload. A test without attempts makes the parser throw. Otherwise the payload has project id `123` and one record per collected test, in collection order. |
| TestParser.CollectCount | TestParser.js:20-37 | The traversal yields as many entries as there are `tests` elements across all specs of all nested suites. |
| TestParser.CollectMembers | TestParser.js:20-37 | A (spec, test) pair is collected exactly when the spec sits in some suite at any depth and the test is one of its tests. |
| TestParser.CollectAppend | TestParser.js:20-37 | Collecting a concatenation of suite lists collects each list in turn. |
| TestParser.SuiteOrder | TestParser.js:21-36 | A suite contributes its own specs' tests first, then its child suites', and only then do its siblings follow. |
| TestParser.CollectIteratively | TestParser.js:20-37 | A worklist traversal without recursion yields exactly the recursive collection order. |
| TestParser.RetriesDiscarded | TestParser.js:17 | Earlier attempts (retries) never affect a test's record. Only the last attempt counts. |
| TestDataHelper.DefaultKeysDistinct | utils/TestDataHelper.js:50 | Two elements with neither a truthy `testId` nor a truthy `id` get the same `TC<index+1>` key only when they sit at the same position. |
| TestDataHelper.Assemble | utils/TestDataHelper.js:47-54 | Assigning keys in turn gives an object with unique keys, at most one per assignment. |
| TestDataHelper.AssembleKeys | utils/TestDataHelper.js:47-54 | The assembled object's key set is exactly the set of assigned keys. |
| TestDataHelper.AssembleConsistent | utils/TestDataHelper.js:49-52 | When equal keys are always assigned equal values, every key reads the value assigned with it. |
| TestDataHelper.AssembleLastWins | utils/TestDataHelper.js:49-52 | Under a repeated key, the value assigned last is kept. |
| TestDataHelper.BuildContents | utils/TestDataHelper.js:47-54 | The converted object has unique keys, at most one per test, and the key set is the tests' keys. Each test that is the last one with its key is stored under it. |
| TestDataHelper.ConvertTestsArrayToObject | utils/TestDataHelper.js:47-54 | The conversion succeeds exactly when no element is `null`, because reading `testId` of `null` throws. |
| TestDataHelper.LoadTestData | utils/TestDataHelper.js:12-43 | The working file wins over the static file. A truthy `testData` is used as is. Otherwise a truthy `tests` array without `null` elements becomes the object `convertTestsArrayToObject` builds. Otherwise the file itself is the store. Read and parse failures, and a failed conversion, become `Failed to load test data`. |
| TestDataHelper.GetTestDataById | utils/TestDataHelper.js:57-68 | The trimmed id is looked up. A found value is truthy and sits under an own key. A missing or falsy value raises not-found for the trimmed id. |
| TestDataHelper.LookupIgnoresPadding | utils/TestDataHelper.js:58 | Ids that differ only in surrounding white space get the same answer. |
| TestDataHelper.LookupConvertedTest | utils/TestDataHelper.js:47-67 | A test converted from a `tests` array is found again by its key, padded or not, when the key has no surrounding white space, the test is the last one with that key, and it is truthy. A falsy test is reported as not found. |
| TestDataHelper.PaddedKeyUnreachable | utils/TestDataHelper.js:57-61 | A key with surrounding white space, such as a `testId` of `" TC1"`, is never the key looked up, whatever id is asked for. |
| TestDataHelper.GetAllTestIds | utils/TestDataHelper.js:71-73 | A `null` store throws. Otherwise the ids are the store's own keys in insertion order. |
| TestDataHelper.Matching | utils/TestDataHelper.js:78 | An id is kept exactly when it contains the pattern, and the result is never longer than the input. |
| TestDataHelper.MatchingAppend | utils/TestDataHelper.js:78 | Filtering a concatenation filters each part in turn, so the kept ids stay in their original order. |
| TestDataHelper.MatchingOne | utils/TestDataHelper.js:78 | A single id is kept exactly when it contains the pattern. |
| TestDataHelper.MatchingCounts | utils/TestDataHelper.js:78 | Each matching id is kept as many times as it occurs, and every other id is dropped. |
| TestDataHelper.FilterTestsByPattern | utils/TestDataHelper.js:76-79 | A `null` store throws. Otherwise the filter returns exactly the store's ids that contain the pattern, as `Matching` of `Object.keys` keeps them in key order. |
| TestDataHelper.MatchingEmpty | utils/TestDataHelper.js:78 | The empty pattern keeps every id. |
| TestDataHelper.FirstFailure | utils/TestDataHelper.js:84-86 | Reports the first failing lookup, or none when every lookup succeeds. |
| TestDataHelper.GetMultipleTestData | utils/TestDataHelper.js:82-88 | Succeeds exactly when every requested id is found, with exactly the requested ids as keys. Otherwise it raises the first id's failure. |
| TestDataHelper.MultipleValues | utils/TestDataHelper.js:82-88 | Each requested id maps to the value found for the last request under that exact id. |
| TestDataHelper.HasCaseKey | utils/TestDataHelper.js:110 | True exactly when some key starts with `TC` or `EDGE`. |
| TestDataHelper.ValidateTestData | utils/TestDataHelper.js:104-120 | A non-object is rejected with `Test data must be an object`. An object is valid exactly when it has a `TC*`/`EDGE*` key or a truthy `testData` or `tests`. Otherwise it gets the format message. |
| Archive.Sanitize | index.js:175 | Every `:` and `.` of the timestamp becomes `-`. Nothing else changes. |
| Archive.ArchiveName | index.js:175-176 | The archive name is `results-`, then the sanitized timestamp, then `.json`. |
| Archive.ArchiveNamesDistinct | index.js:175-176 | Distinct ISO timestamps give distinct archive names. |
| Archive.JsonFilesCounts | index.js:99 | Exactly the directory entries whose name ends in `.json` are kept, with their multiplicity. |
| Archive.JsonFilesAppend | index.js:98-99 | Filtering a concatenation filters each part in turn, so kept entries stay in `readdirSync` order. |
| Archive.JsonFilesOne | index.js:99 | A single entry is kept exactly when its name ends in `.json`. |
| Archive.Insert | index.js:110 | Insertion keeps the list newest-first and loses no entry. |
| Archive.SortNewestFirst | index.js:110 | The listing is a permutation of its input, ordered by decreasing modification time. |
| Archive.SortStable | index.js:110 | Entries with equal modification times keep their directory order, as the stable `Array.prototype.sort` does. |
| Archive.NewestFirstUnique | index.js:110 | Only one newest-first order keeps equal-time entries in a given order. |
| Server.RequestJson | index.js:129-135 | The saved working file is an object with the request's `projectId`, `tests` and `callbackUrl`. Undefined ones are dropped, and no other key appears. |
| Server.OptPut | index.js:134-135 | A shorthand property with a defined value is assigned. An undefined one is dropped by `JSON.stringify`, and no other key changes or appears. |
| Server.Persist | index.js:174-219 | After a successful parse, the run succeeds exactly when the mkdir (if needed) and both writes go through. A failure answers 500 `Error processing test results`, leaves `latest-results.json` alone and posts nothing. Success stores the payload under the timestamped name and as the latest. No archived file other than that name is added, changed or removed, and `test-results.json` and the screenshot files are left as they were. |
| Server.Trigger | index.js:128-230 | A failed save answers 500 before the runner starts and changes nothing. A missing results file, a `null` parse, a parser crash or a failed mkdir/write each answer 500, leave `latest-results.json` alone and post nothing. A parser crash and a failed mkdir/write answer `Error processing test results`, and a crash archives nothing. Success archives the payload under `results-<ts>.json`, makes it the latest, echoes the request's project id, and posts exactly when `callbackUrl` is truthy. Once the runner has run, `test-results.json` is the fresh report (or the stale one when none was written) and the screenshot files are those the runner left. No archived file other than `results-<ts>.json` is ever added. |
| Server.TriggerSucceedsIff | index.js:133-189 | The run succeeds exactly when the save, the parse, the mkdir (if it is needed) and both writes all go through. |
| Server.DeliveryIgnored | index.js:192-209 | How a finished callback POST ends never changes the response or the files. The model never reads the delivery outcome, so this holds by construction. A POST that never ends withholds the response; see "Left out". |
| Server.StaleReportReused | index.js:155-164 | If the runner writes no report, a report left by an earlier run is parsed, against the screenshot files this run left, and returned as this run's result. |
| Server.TriggerRoundTrip | index.js:30-188 | After a successful run, `/results/<resultsFile>` and `/results` both return the payload the run answered with. |
| Server.SavedRequestFeedsTestData | utils/TestDataHelper.js:15-30 | The saved request, loaded back by the test-data helper, becomes the store built from its `tests` array. A request without a truthy `tests` is itself the store. |
| Server.SavedRequestValidates | utils/TestDataHelper.js:104-120 | The saved request passes validation exactly when its `tests` is truthy. |
| Server.GetLatest | index.js:30-54 | Gives 404 `No test results available yet` exactly when `latest-results.json` is absent. An unreadable file gives 500 `Failed to read test results`. A readable one is returned with the reply time. |
| Server.GetArchived | index.js:58-84 | Gives 404 `Results file <name> not found` exactly when the archive has no such file. An unreadable file gives 500 `Failed to read test results file`. A readable one is returned with its name. |
| Server.ListResults | index.js:88-116 | A missing `results/` directory gives an empty list with a message. Otherwise the list holds exactly the `.json` files of the directory read, with their `stat` values, newest first. |
| Server.ListingIsStableSort | index.js:98-110 | The listing is the unique stable newest-first arrangement of the `.json` entries. |
| Server.ArchivedFileListed | index.js:98-176 | The file a successful run archived appears in `/results-list` with its `stat` values, whatever order `readdirSync` reports the directory in. |
| Server.ArchiveOnlyGrows | index.js:179-185 | Across any sequence of trigger requests, no archived result file is ever removed. |

## Left out

- The health endpoints `/` and `/health` only report liveness, so they are not modelled.
- Express routing, `child_process.exec`, `node-fetch` and console logging are not modelled. The runner's effect
  is an input (`RunnerEffect`), and so is callback delivery, which the handler ignores.
- The test run and the callback POST are assumed to finish. Neither `exec` (index.js:149) nor `fetch`
  (index.js:195) has a timeout, and the success response is sent only after the POST settles. A runner or callback
  endpoint that hangs therefore leaves the request unanswered, while `Trigger` always answers.
- The screenshot files after a run are an input of their own (`RunnerEffect.shots`), independent of whether a
  report was written. Playwright's default output directory `test-results/` is emptied when a run starts, so a
  run that writes no report can still remove the screenshots a stale report points to.
- Strings are sequences of Unicode scalar values, whereas JavaScript strings are UTF-16 code units: `length` and
  `substring` count code units, and a lone surrogate such as `"\uD800"` cannot be held in a Dafny `char`. This
  matters only for ids or titles outside the Basic Multilingual Plane; the base64 screenshot text is ASCII.
- Real file I/O, `JSON.parse`/`JSON.stringify`, base64 encoding and `path.resolve` are abstracted. Files are map
  entries, and a screenshot file is given by its base64 text keyed by the corrected path.
- Writes are atomic here. A failed `writeFileSync` of `results/<name>` or `latest-results.json` leaves the old
  file untouched, or no file at all. A real write that fails after opening the file may leave it truncated or
  partial, so "leaves `latest-results.json` alone" holds only for writes that fail before touching the file.
- Concurrent requests are not modelled: two overlapping `/trigger-tests` runs share the same working files, but
  here the requests run one after another.
- `readdirSync` order and `statSync` values are inputs, with birth and modification times as integers
  (milliseconds). The `stat`/`readdir` failures inside `/results-list` (its 500 branch) are not modelled.
- Object keys that look like array indices come first in `Object.keys` order. This model keeps pure insertion
  order instead.
- Arrays and strings used as a test-data store have no own keys here, and inherited prototype properties
  (such as `constructor`) are not modelled.
- Parsed objects are assumed to have unique keys. A JSON text that repeats a key is read by `JSON.parse` with
  the last value winning; a field list with a repeated key would instead read the first value here.
- JSON numbers are integers, so floating-point values are not modelled.
- `saveTestDataToFile`, `reloadTestData` and the rest of `utils/TestDataHelper.js` outside the listed operations
  are not modelled. The helper's constructor is `LoadTestData`.
- The detail text of caught errors (`error.message`) is not modelled. Only the fixed messages and status codes
  are.
- Path traversal through `:filename` is not modelled, since archive names are plain keys.
- Malformed reports are not modelled, apart from a test with no attempts: missing `suites`, `tests` or
  `attachments` arrays cannot occur in the `Suite`/`Spec`/`Attempt` datatypes.
- Json.ToKey: objects that override `toString` are not modelled. Every object becomes `[object Object]`.
- TestParser.ParseResults: a test with an empty `results` array is not a precondition. `getLastResult` returns
  `undefined`, the parser throws, and the handler's outer catch answers 500 `Error processing test results`. The
  model follows that code path (`Crashed`).
- TestParser.LastAttempt has no contract of its own. `RetriesDiscarded` and `MakeRecord` state what it means.

=== FILE: archive.dfy ===
/**
 * Naming and listing of archived result files (index.js): the timestamped
 * archive name derived from `new Date().toISOString()`, and the `.json`
 * filter and newest-first ordering of `/results-list`.
 */
module Archive {
  import Strings

  const Prefix := "results-"
  const Extension := ".json"

  /** `ts.replace(/[:.]/g, '-')`. */
  function Sanitize(ts: string): (r: string)
    ensures |r| == |ts|
    ensures ':' !in r && '.' !in r
    ensures forall i :: 0 <= i < |ts| && ts[i] != ':' && ts[i] != '.' ==> r[i] == ts[i]
    ensures forall i :: 0 <= i < |ts| && (ts[i] == ':' || ts[i] == '.') ==> r[i] == '-'
  {
    seq(|ts|, i requires 0 <= i < |ts| => if ts[i] == ':' || ts[i] == '.' then '-' else ts[i])
  }

  /** `results-<timestamp>.json`. */
  function ArchiveName(ts: string): (name: string)
    ensures |name| == |Prefix| + |ts| + |Extension|
    ensures Strings.StartsWith(name, Prefix) && Strings.EndsWith(name, Extension)
    ensures name[..|Prefix|] == Prefix && name[|Prefix|..|Prefix| + |ts|] == Sanitize(ts)
    ensures ':' !in name[|Prefix|..|Prefix| + |ts|] && '.' !in name[|Prefix|..|Prefix| + |ts|]
  {
    var name := Prefix + Sanitize(ts) + Extension;
    assert name[|Prefix|..|Prefix| + |ts|] == Sanitize(ts);
    assert name[|name| - |Extension|..] == Extension;
    name
  }

  predicate IsDigit(c: char)
  {
    '0' <= c <= '9'
  }

  /**
   * The shape `toISOString` gives for years 0 to 9999:
   * `YYYY-MM-DDTHH:mm:ss.sssZ`.
   */
  ghost predicate IsIsoTimestamp(ts: string)
  {
    && |ts| == 24
    && ts[4] == '-' && ts[7] == '-' && ts[10] == 'T'
    && ts[13] == ':' && ts[16] == ':' && ts[19] == '.' && ts[23] == 'Z'
    && forall i :: 0 <= i < 24 && i !in {4, 7, 10, 13, 16, 19, 23} ==> IsDigit(ts[i])
  }

  /**
   * Distinct instants get distinct archive files: on ISO timestamps the
   * replacement of `:` and `.` loses no information.
   */
  lemma ArchiveNamesDistinct(ts1: string, ts2: string)
    requires IsIsoTimestamp(ts1) && IsIsoTimestamp(ts2)
    requires ArchiveName(ts1) == ArchiveName(ts2)
    ensures ts1 == ts2
  {
    var s1, s2 := Sanitize(ts1), Sanitize(ts2);
    assert s1 == ArchiveName(ts1)[|Prefix|..|Prefix| + 24];
    assert s2 == ArchiveName(ts2)[|Prefix|..|Prefix| + 24];
    forall i | 0 <= i < 24 ensures ts1[i] == ts2[i] {
      if i !in {13, 16, 19} {
        assert ts1[i] != ':' && ts1[i] != '.';
        assert ts2[i] != ':' && ts2[i] != '.';
        assert s1[i] == s2[i];
      }
    }
  }

  /** A directory entry with its `stat` values (times in milliseconds). */
  datatype DirEntry = DirEntry(filename: string, size: int, created: int, modified: int)

  /** `files.filter(file => file.endsWith('.json'))`. */
  function JsonFiles(es: seq<DirEntry>): (r: seq<DirEntry>)
    ensures forall e :: e in r ==> Strings.EndsWith(e.filename, Extension)
  {
    if |es| == 0 then []
    else (if Strings.EndsWith(es[0].filename, Extension) then [es[0]] else []) + JsonFiles(es[1..])
  }

  /** Exactly the `.json` entries are kept, each as often as it occurs. */
  lemma {:induction false} JsonFilesCounts(es: seq<DirEntry>)
    ensures forall e :: multiset(JsonFiles(es))[e] == if Strings.EndsWith(e.filename, Extension) then multiset(es)[e] else 0
  {
    if |es| > 0 {
      JsonFilesCounts(es[1..]);
      assert es == [es[0]] + es[1..];
    }
  }

  /** Filtering a concatenation filters each part in turn: kept entries stay in directory order. */
  lemma {:induction false} JsonFilesAppend(a: seq<DirEntry>, b: seq<DirEntry>)
    ensures JsonFiles(a + b) == JsonFiles(a) + JsonFiles(b)
  {
    if |a| > 0 {
      assert (a + b)[0] == a[0] && (a + b)[1..] == a[1..] + b;
      JsonFilesAppend(a[1..], b);
    } else {
      assert a + b == b;
    }
  }

  /** A single entry is kept exactly when its name ends in `.json`. */
  lemma JsonFilesOne(e: DirEntry)
    ensures JsonFiles([e]) == if Strings.EndsWith(e.filename, Extension) then [e] else []
  {
    assert [e][1..] == [];
  }

  /** `modified` never increases along the list. */
  ghost predicate NewestFirst(es: seq<DirEntry>)
  {
    forall i, j :: 0 <= i < j < |es| ==> es[i].modified >= es[j].modified
  }

  /** The entries with a given modification time, in list order. */
  function WithModified(es: seq<DirEntry>, m: int): seq<DirEntry>
  {
    if |es| == 0 then []
    else (if es[0].modified == m then [es[0]] else []) + WithModified(es[1..], m)
  }

  lemma WithModifiedCons(x: DirEntry, es: seq<DirEntry>, m: int)
    ensures WithModified([x] + es, m) == (if x.modified == m then [x] else []) + WithModified(es, m)
  {
    assert ([x] + es)[1..] == es;
  }

  lemma TailNewestFirst(es: seq<DirEntry>)
    requires NewestFirst(es) && |es| > 0
    ensures NewestFirst(es[1..])
  {
    forall i, j | 0 <= i < j < |es| - 1 ensures es[1..][i].modified >= es[1..][j].modified {
      assert es[1..][i] == es[i + 1] && es[1..][j] == es[j + 1];
    }
  }

  /** Places `e` before the first entry that is not newer than it. */
  function Insert(e: DirEntry, es: seq<DirEntry>): (r: seq<DirEntry>)
    requires NewestFirst(es)
    ensures NewestFirst(r)
    ensures multiset(r) == multiset(es) + multiset{e}
    ensures |r| > 0 && (r[0] == e || (|es| > 0 && r[0] == es[0]))
  {
    if |es| == 0 || e.modified >= es[0].modified then
      ConsNewestFirst(e, es);
      [e] + es
    else
      TailNewestFirst(es);
      var rest := Insert(e, es[1..]);
      assert es == [es[0]] + es[1..];
      assert multiset([es[0]] + rest) == multiset{es[0]} + multiset(rest);
      ConsNewestFirst(es[0], rest);
      [es[0]] + rest
  }

  /** An entry at least as new as the head of a newest-first list can go in front. */
  lemma ConsNewestFirst(x: DirEntry, es: seq<DirEntry>)
    requires NewestFirst(es)
    requires |es| == 0 || x.modified >= es[0].modified
    ensures NewestFirst([x] + es)
  {
    var r := [x] + es;
    forall i, j | 0 <= i < j < |r| ensures r[i].modified >= r[j].modified {
      if i > 0 {
        assert r[i] == es[i - 1] && r[j] == es[j - 1];
      } else {
        assert r[j] == es[j - 1];
        assert es[0].modified >= es[j - 1].modified || j - 1 == 0;
      }
    }
  }

  /** Inserting `e` adds it in front of the entries that share its time. */
  lemma {:induction false} InsertStable(e: DirEntry, es: seq<DirEntry>, m: int)
    requires NewestFirst(es)
    ensures WithModified(Insert(e, es), m) == (if e.modified == m then [e] else []) + WithModified(es, m)
  {
    if |es| == 0 || e.modified >= es[0].modified {
      assert Insert(e, es) == [e] + es;
      WithModifiedCons(e, es, m);
    } else {
      TailNewestFirst(es);
      var rest := Insert(e, es[1..]);
      assert Insert(e, es) == [es[0]] + rest;
      InsertStable(e, es[1..], m);
      WithModifiedCons(es[0], rest, m);
      WithModifiedCons(es[0], es[1..], m);
      assert es == [es[0]] + es[1..];
    }
  }

  /**
   * `.sort((a, b) => b.modified - a.modified)`: newest first, and, as the
   * sort is stable, entries with equal times keep their directory order.
   */
  function SortNewestFirst(es: seq<DirEntry>): (r: seq<DirEntry>)
    ensures NewestFirst(r)
    ensures multiset(r) == multiset(es)
  {
    if |es| == 0 then []
    else
      assert es == [es[0]] + es[1..];
      Insert(es[0], SortNewestFirst(es[1..]))
  }

  /** Entries with equal modification times keep their directory order. */
  lemma {:induction false} SortStable(es: seq<DirEntry>, m: int)
    ensures WithModified(SortNewestFirst(es), m) == WithModified(es, m)
  {
    if |es| > 0 {
      var rest := SortNewestFirst(es[1..]);
      var head := if es[0].modified == m then [es[0]] else [];
      calc {
        WithModified(SortNewestFirst(es), m);
        { assert SortNewestFirst(es) == Insert(es[0], rest); }
        WithModified(Insert(es[0], rest), m);
        { InsertStable(es[0], rest, m); }
        head + WithModified(rest, m);
        { SortStable(es[1..], m); }
        head + WithModified(es[1..], m);
        { WithModifiedCons(es[0], es[1..], m); }
        WithModified([es[0]] + es[1..], m);
        { assert es == [es[0]] + es[1..]; }
        WithModified(es, m);
      }
    }
  }

  lemma HeadIsListed(es: seq<DirEntry>)
    requires |es| > 0
    ensures WithModified(es, es[0].modified) != []
  {
    WithModifiedCons(es[0], es[1..], es[0].modified);
    assert es == [es[0]] + es[1..];
  }

  lemma {:induction false} NoneAsNew(es: seq<DirEntry>, m: int)
    requires forall i :: 0 <= i < |es| ==> es[i].modified < m
    ensures WithModified(es, m) == []
  {
    if |es| > 0 {
      NoneAsNew(es[1..], m);
    }
  }

  /**
   * The order is fully determined: any newest-first arrangement that keeps
   * equal-time entries in directory order is the one `SortNewestFirst` gives.
   */
  lemma {:induction false} NewestFirstUnique(a: seq<DirEntry>, b: seq<DirEntry>)
    requires NewestFirst(a) && NewestFirst(b)
    requires forall m :: WithModified(a, m) == WithModified(b, m)
    ensures a == b
  {
    if |a| == 0 || |b| == 0 {
      if |a| > 0 {
        HeadIsListed(a);
        assert false;
      } else if |b| > 0 {
        HeadIsListed(b);
        assert false;
      }
    } else {
      assert a == [a[0]] + a[1..] && b == [b[0]] + b[1..];
      var ma, mb := a[0].modified, b[0].modified;
      WithModifiedCons(a[0], a[1..], ma);
      WithModifiedCons(b[0], b[1..], mb);
      if ma > mb {
        NoneAsNew(b, ma);
        assert false;
      } else if mb > ma {
        NoneAsNew(a, mb);
        assert false;
      }
      assert WithModified(a, ma)[0] == a[0] && WithModified(b, ma)[0] == b[0];
      assert a[0] == b[0];
      forall m ensures WithModified(a[1..], m) == WithModified(b[1..], m) {
        WithModifiedCons(a[0], a[1..], m);
        WithModifiedCons(b[0], b[1..], m);
        assert WithModified(a, m) == WithModified(b, m);
        var x, y := WithModified(a[1..], m), WithModified(b[1..], m);
        if m == ma {
          assert [a[0]] + x == [b[0]] + y;
          assert ([a[0]] + x)[1..] == x && ([b[0]] + y)[1..] == y;
        } else {
          assert WithModified(a, m) == x && WithModified(b, m) == y;
        }
      }
      NewestFirstUnique(a[1..], b[1..]);
    }
  }
}

=== FILE: common.dfy ===
/** Failure-carrying wrappers shared by every module of the model. */
module Common {

  /** A value that may be missing: JavaScript's `undefined` or an absent file. */
  datatype Option<+T> = None | Some(value: T)

  /** The outcome of an operation that either returns a value or throws. */
  datatype Result<+T, +E> = Ok(value: T) | Err(error: E)
}

=== FILE: json.dfy ===
/**
 * Parsed JSON values with the JavaScript semantics the repository leans on:
 * truthiness, property reads, `String(v)` as used for property keys, and
 * plain objects as insertion-ordered field lists (the order `Object.keys`
 * reports and assignment preserves).
 */
module Json {
  import opened Common
  import Strings

  datatype Json =
    | Null
    | Bool(b: bool)
    | Num(n: int)
    | Str(s: string)
    | Arr(items: seq<Json>)
    | Obj(fields: seq<Field>)

  datatype Field = Field(key: string, value: Json)

  /** JavaScript truthiness of a value that may be `undefined` (`None`). */
  predicate Truthy(v: Option<Json>)
  {
    match v
    case None => false
    case Some(Null) => false
    case Some(Bool(b)) => b
    case Some(Num(n)) => n != 0
    case Some(Str(s)) => s != ""
    case Some(Arr(_)) => true
    case Some(Obj(_)) => true
  }

  /** The keys of an object's fields, in insertion order. */
  function Keys(fs: seq<Field>): (r: seq<string>)
    ensures |r| == |fs|
  {
    if |fs| == 0 then [] else [fs[0].key] + Keys(fs[1..])
  }

  lemma {:induction false} KeysAt(fs: seq<Field>, i: nat)
    requires i < |fs|
    ensures Keys(fs)[i] == fs[i].key
  {
    if i > 0 {
      KeysAt(fs[1..], i - 1);
    }
  }

  /** No key appears twice: the shape every JavaScript object has. */
  ghost predicate UniqueKeys(fs: seq<Field>)
  {
    forall i, j :: 0 <= i < j < |fs| ==> fs[i].key != fs[j].key
  }

  /** `o[k]` for an own property `k` of an object. */
  function Get(fs: seq<Field>, k: string): (r: Option<Json>)
  {
    if |fs| == 0 then None
    else if fs[0].key == k then Some(fs[0].value)
    else Get(fs[1..], k)
  }

  /** A read returns the value of a field stored under the key. */
  lemma {:induction false} GetFound(fs: seq<Field>, k: string)
    ensures Get(fs, k).Some? ==> Field(k, Get(fs, k).value) in fs
  {
    if |fs| > 0 && fs[0].key != k {
      GetFound(fs[1..], k);
    }
  }

  /** A read yields a value exactly when the key is among the object's keys. */
  lemma {:induction false} GetDefined(fs: seq<Field>, k: string)
    ensures Get(fs, k).Some? <==> k in Keys(fs)
  {
    if |fs| > 0 {
      GetDefined(fs[1..], k);
    }
  }

  /**
   * `o[k] = v`: an existing key keeps its position and takes the new value,
   * a new key is appended at the end.
   */
  function Put(fs: seq<Field>, k: string, v: Json): (r: seq<Field>)
    ensures Get(r, k) == Some(v)
    ensures forall k' :: k' != k ==> Get(r, k') == Get(fs, k')
  {
    if |fs| == 0 then [Field(k, v)]
    else if fs[0].key == k then
      var r := [Field(k, v)] + fs[1..];
      assert r[1..] == fs[1..];
      r
    else
      var rest := Put(fs[1..], k, v);
      var r := [fs[0]] + rest;
      assert r[1..] == rest;
      r
  }

  /** An existing key keeps its place; a new key goes last. */
  lemma {:induction false} PutKeys(fs: seq<Field>, k: string, v: Json)
    ensures Keys(Put(fs, k, v)) == if k in Keys(fs) then Keys(fs) else Keys(fs) + [k]
  {
    if |fs| > 0 {
      var r := Put(fs, k, v);
      if fs[0].key == k {
        assert r[1..] == fs[1..];
      } else {
        PutKeys(fs[1..], k, v);
        assert r[1..] == Put(fs[1..], k, v);
      }
    }
  }

  /** Assignment never makes an object carry a key twice. */
  lemma {:induction false} PutKeepsKeysUnique(fs: seq<Field>, k: string, v: Json)
    requires UniqueKeys(fs)
    ensures UniqueKeys(Put(fs, k, v))
  {
    var r := Put(fs, k, v);
    PutKeys(fs, k, v);
    var ks := Keys(fs);
    forall i, j | 0 <= i < j < |ks|
      ensures ks[i] != ks[j]
    {
      KeysAt(fs, i);
      KeysAt(fs, j);
    }
    forall i, j | 0 <= i < j < |r|
      ensures r[i].key != r[j].key
    {
      KeysAt(r, i);
      KeysAt(r, j);
    }
  }

  /** `v[k]` on a non-null value: only plain objects carry own fields here. */
  function Prop(v: Json, k: string): (r: Option<Json>)
    ensures !v.Obj? ==> r.None?
  {
    if v.Obj? then Get(v.fields, k) else None
  }

  /** The own keys `Object.keys` reports for a plain object, `[]` for anything else. */
  function OwnKeys(v: Json): seq<string>
  {
    if v.Obj? then Keys(v.fields) else []
  }

  /** `arr.join(",")` of already rendered elements. */
  function JoinComma(parts: seq<string>): string
  {
    if |parts| == 0 then ""
    else if |parts| == 1 then parts[0]
    else parts[0] + "," + JoinComma(parts[1..])
  }

  /** `String(v)`: the property key JavaScript makes of a value. */
  function ToKey(v: Json): string
  {
    match v
    case Null => "null"
    case Bool(b) => if b then "true" else "false"
    case Num(n) => Strings.IntToString(n)
    case Str(s) => s
    case Obj(_) => "[object Object]"
    case Arr(items) =>
      JoinComma(seq(|items|, i requires 0 <= i < |items| =>
        if items[i].Null? then "" else ToKey(items[i])))
  }
}

=== FILE: server.dfy ===
/**
 * The HTTP surface of index.js as pure functions over an abstract file
 * store: the `/trigger-tests` pipeline as a step function returning the
 * response and the new store, and the read-only `/results`,
 * `/results/:filename` and `/results-list` queries.
 *
 * The test runner, the clock, write failures and the callback delivery are
 * inputs (`Env`); JSON serialisation of what is written is taken to read back
 * as written.
 */
module Server {
  import opened Common
  import opened Json
  import opened TestParser
  import Strings
  import Archive
  import TestDataHelper

  /** The body of a trigger request; `None` is a field the caller left out. */
  datatype RunRequest = RunRequest(projectId: Option<Json>, tests: Option<Json>, callbackUrl: Option<Json>)

  /** A results file as a later `JSON.parse` reads it. */
  datatype Stored = Garbled | Holds(payload: Payload)

  datatype Store = Store(
    workingFile: Option<Json>,          // current-test-data.json
    testResults: Option<ReportFile>,    // test-results.json
    screenshots: Disk,                  // screenshot files under test-results/
    latest: Option<Stored>,             // latest-results.json
    archive: Option<map<string, Stored>>) // the results/ directory, when it exists

  /**
   * What `npx playwright test` leaves behind; its exit status is never read.
   * `report` is a freshly written `test-results.json`, if any. `shots` is the
   * screenshot directory afterwards: Playwright empties `test-results/` when a
   * run starts, so it need not be the old one even when no report is written.
   */
  datatype RunnerEffect = RunnerEffect(report: Option<ReportFile>, shots: Disk)

  /** How the POST to the callback URL ended; only logged. */
  datatype Delivery = Delivered | Refused(status: int) | Unreachable

  /** Which file-system calls throw. */
  datatype Faults = Faults(saveFails: bool, mkdirFails: bool, archiveWriteFails: bool, latestWriteFails: bool)

  /**
   * The world a trigger request runs in. The handler never reads `delivery`:
   * it is carried only so that `DeliveryIgnored` can state that.
   */
  datatype Env = Env(faults: Faults, runner: RunnerEffect, clock: string, replyClock: string, delivery: Delivery)

  datatype TriggerResponse =
    | TriggerFailed(code: int, message: string)
    | TriggerSucceeded(projectId: Option<Json>, timestamp: string, resultsFile: string, data: Payload)

  /**
   * The response, the store afterwards, whether the runner was started and
   * the payload POSTed to the callback URL, if any.
   */
  datatype TriggerOutcome = TriggerOutcome(response: TriggerResponse, store: Store, ranRunner: bool, posted: Option<Payload>)

  const SaveFailed := "Failed to save test data"
  const NotGenerated := "Test results file not generated"
  const ParseFailed := "Failed to parse test results"
  const ProcessingFailed := "Error processing test results"
  const NoResultsYet := "No test results available yet"
  const ReadFailed := "Failed to read test results"
  const ReadFileFailed := "Failed to read test results file"
  const NoResultsDir := "No results directory found"

  /** `JSON.stringify({ projectId, tests, callbackUrl })`: undefined fields are dropped. */
  function RequestJson(req: RunRequest): (j: Json)
    ensures j.Obj? && UniqueKeys(j.fields)
    ensures Prop(j, "projectId") == req.projectId
    ensures Prop(j, "tests") == req.tests
    ensures Prop(j, "callbackUrl") == req.callbackUrl
    ensures forall k :: k in Keys(j.fields) ==> k in ["projectId", "tests", "callbackUrl"]
  {
    assert "tests"[0] != "projectId"[0] && "callbackUrl"[0] != "projectId"[0] && "callbackUrl"[0] != "tests"[0];
    Obj(Shorthand("projectId", req.projectId, "tests", req.tests, "callbackUrl", req.callbackUrl))
  }

  /** `{ k1, k2, k3 }` with three distinct shorthand properties, some possibly undefined. */
  function Shorthand(k1: string, v1: Option<Json>, k2: string, v2: Option<Json>, k3: string, v3: Option<Json>): (fs: seq<Field>)
    requires k1 != k2 && k1 != k3 && k2 != k3
    ensures UniqueKeys(fs)
    ensures Get(fs, k1) == v1 && Get(fs, k2) == v2 && Get(fs, k3) == v3
    ensures forall k :: k in Keys(fs) ==> k == k1 || k == k2 || k == k3
  {
    OptPut(OptPut(OptPut([], k1, v1), k2, v2), k3, v3)
  }

  /** A shorthand property: assigned when defined, dropped by `JSON.stringify` when undefined. */
  function OptPut(fs: seq<Field>, k: string, v: Option<Json>): (r: seq<Field>)
    requires UniqueKeys(fs)
    ensures UniqueKeys(r)
    ensures Get(r, k) == if v.Some? then v else Get(fs, k)
    ensures forall k' :: k' != k ==> Get(r, k') == Get(fs, k')
    ensures forall x :: x in Keys(r) ==> x in Keys(fs) || x == k
  {
    if v.Some? then
      PutKeys(fs, k, v.value);
      PutKeepsKeysUnique(fs, k, v.value);
      Put(fs, k, v.value)
    else fs
  }

  /** `test-results.json` once the runner has exited: a stale file stays when nothing was written. */
  function ResultsAfterRun(s: Store, runner: RunnerEffect): Option<ReportFile>
  {
    if runner.report.Some? then runner.report else s.testResults
  }

  /** The handler never reaches its success response. */
  function Fail(message: string, s: Store, ranRunner: bool): TriggerOutcome
  {
    TriggerOutcome(TriggerFailed(500, message), s, ranRunner, None)
  }

  /** The `/trigger-tests` handler. */
  function Trigger(s: Store, req: RunRequest, env: Env): (o: TriggerOutcome)
    // a failed save answers 500 before the runner is started, and changes nothing
    ensures env.faults.saveFails ==> o == TriggerOutcome(TriggerFailed(500, SaveFailed), s, false, None)
    ensures !env.faults.saveFails ==> o.ranRunner && o.store.workingFile == Some(RequestJson(req))
    // no results file after the run: 500, nothing archived
    ensures !env.faults.saveFails && ResultsAfterRun(s, env.runner).None? ==>
              o.response == TriggerFailed(500, NotGenerated) && o.store.archive == s.archive
    // the parser gave null: 500, nothing archived
    ensures !env.faults.saveFails && ResultsAfterRun(s, env.runner) == Some(Unreadable) ==>
              o.response == TriggerFailed(500, ParseFailed) && o.store.archive == s.archive
    // the parser threw: 500, nothing archived
    ensures !env.faults.saveFails && Parse(ResultsAfterRun(s, env.runner), env.runner.shots).Crashed? ==>
              o.response == TriggerFailed(500, ProcessingFailed) && o.store.archive == s.archive
    // after a successful parse, a failed mkdir or write answers the same 500
    ensures (!env.faults.saveFails && Parse(ResultsAfterRun(s, env.runner), env.runner.shots).Parsed? &&
             o.response.TriggerFailed?) ==> o.response == TriggerFailed(500, ProcessingFailed)
    // every failure is a 500 that leaves latest-results.json alone and posts nothing
    ensures o.response.TriggerFailed? ==> o.response.code == 500 && o.store.latest == s.latest && o.posted.None?
    // once the runner has run, its report and screenshots are what later runs find
    ensures !env.faults.saveFails ==>
              o.store.testResults == ResultsAfterRun(s, env.runner) && o.store.screenshots == env.runner.shots
    // the only archive file a run can add is its own
    ensures o.store.archive.Some? ==>
              o.store.archive.value.Keys <= (if s.archive.Some? then s.archive.value.Keys else {}) + {Archive.ArchiveName(env.clock)}
    // archives are only ever added or overwritten under the new name
    ensures s.archive.Some? ==>
              && o.store.archive.Some?
              && forall n :: n in s.archive.value && n != Archive.ArchiveName(env.clock) ==>
                   n in o.store.archive.value && o.store.archive.value[n] == s.archive.value[n]
    // success: the same payload is archived and latest, and echoed with the request's project id
    ensures o.response.TriggerSucceeded? ==>
              var name := o.response.resultsFile;
              && name == Archive.ArchiveName(env.clock)
              && o.response.projectId == req.projectId
              && o.response.timestamp == env.replyClock
              && o.store.archive.Some? && name in o.store.archive.value
              && o.store.archive.value[name] == Holds(o.response.data)
              && o.store.latest == Some(Holds(o.response.data))
              && Parse(ResultsAfterRun(s, env.runner), env.runner.shots) == Parsed(o.response.data)
    // the payload is POSTed exactly when the run succeeded and a callback URL was given
    ensures o.posted.Some? <==> o.response.TriggerSucceeded? && Truthy(req.callbackUrl)
    ensures o.posted.Some? ==> o.posted.value == o.response.data
  {
    if env.faults.saveFails then Fail(SaveFailed, s, false)
    else
      var s1 := s.(workingFile := Some(RequestJson(req)),
                   testResults := ResultsAfterRun(s, env.runner),
                   screenshots := env.runner.shots);
      match s1.testResults
      case None => Fail(NotGenerated, s1, true)
      case Some(file) =>
        match ParseResults(file, s1.screenshots)
        case NoPayload => Fail(ParseFailed, s1, true)
        case Crashed => Fail(ProcessingFailed, s1, true)
        case Parsed(p) => Persist(s1, req, p, env)
  }

  /**
   * The handler after a successful parse: create `results/` when missing,
   * write the archive copy, then `latest-results.json`, then answer and
   * post to the callback.
   */
  function Persist(s: Store, req: RunRequest, p: Payload, env: Env): (o: TriggerOutcome)
    ensures o.ranRunner && o.store.workingFile == s.workingFile
    ensures o.store.testResults == s.testResults && o.store.screenshots == s.screenshots
    ensures o.store.archive.Some? ==>
              o.store.archive.value.Keys <= (if s.archive.Some? then s.archive.value.Keys else {}) + {Archive.ArchiveName(env.clock)}
    ensures o.response.TriggerFailed? ==>
              o.response == TriggerFailed(500, ProcessingFailed) && o.store.latest == s.latest && o.posted.None?
    ensures s.archive.Some? ==>
              && o.store.archive.Some?
              && forall n :: n in s.archive.value && n != Archive.ArchiveName(env.clock) ==>
                   n in o.store.archive.value && o.store.archive.value[n] == s.archive.value[n]
    ensures o.response.TriggerSucceeded? <==>
              !(s.archive.None? && env.faults.mkdirFails) && !env.faults.archiveWriteFails && !env.faults.latestWriteFails
    ensures o.response.TriggerSucceeded? ==>
              var name := Archive.ArchiveName(env.clock);
              && o.response == TriggerSucceeded(req.projectId, env.replyClock, name, p)
              && o.store.archive.Some? && name in o.store.archive.value
              && o.store.archive.value[name] == Holds(p)
              && o.store.latest == Some(Holds(p))
    ensures o.posted.Some? <==> o.response.TriggerSucceeded? && Truthy(req.callbackUrl)
    ensures o.posted.Some? ==> o.posted.value == p
  {
    var name := Archive.ArchiveName(env.clock);
    if s.archive.None? && env.faults.mkdirFails then Fail(ProcessingFailed, s, true)
    else
      var dir := if s.archive.Some? then s.archive.value else map[];
      if env.faults.archiveWriteFails then Fail(ProcessingFailed, s.(archive := Some(dir)), true)
      else
        var s2 := s.(archive := Some(dir[name := Holds(p)]));
        if env.faults.latestWriteFails then Fail(ProcessingFailed, s2, true)
        else
          var s3 := s2.(latest := Some(Holds(p)));
          var posted := if Truthy(req.callbackUrl) then Some(p) else None;
          TriggerOutcome(TriggerSucceeded(req.projectId, env.replyClock, name, p), s3, true, posted)
  }

  /** `parseResults` as the handler reaches it: the file is known to exist. */
  function Parse(file: Option<ReportFile>, shots: Disk): ParseOutcome
  {
    match file
    case None => NoPayload
    case Some(f) => ParseResults(f, shots)
  }

  // ---------------------------------------------------------------------
  // Read-only queries

  datatype QueryResponse =
    | NotFound(message: string)                                  // 404
    | ReadError(message: string)                                 // 500
    | Found(timestamp: string, filename: Option<string>, data: Payload)

  /** `GET /results`. */
  function GetLatest(s: Store, clock: string): (r: QueryResponse)
    ensures s.latest.None? <==> r == NotFound(NoResultsYet)
    ensures r.Found? <==> s.latest.Some? && s.latest.value.Holds?
    ensures r.Found? ==> s.latest == Some(Holds(r.data)) && r.filename.None?
    ensures s.latest == Some(Garbled) ==> r == ReadError(ReadFailed)
    ensures s.latest.Some? && s.latest.value.Holds? ==> r == Found(clock, None, s.latest.value.payload)
  {
    match s.latest
    case None => NotFound(NoResultsYet)
    case Some(Garbled) => ReadError(ReadFailed)
    case Some(Holds(p)) => Found(clock, None, p)
  }

  /** `GET /results/:filename`: the name is looked up under results/. */
  function GetArchived(s: Store, name: string, clock: string): (r: QueryResponse)
    ensures r.NotFound? <==> s.archive.None? || name !in s.archive.value
    ensures r.NotFound? ==> r.message == "Results file " + name + " not found"
    ensures r.Found? ==>
              && s.archive.Some? && name in s.archive.value
              && s.archive.value[name] == Holds(r.data) && r.filename == Some(name)
    ensures s.archive.Some? && name in s.archive.value && s.archive.value[name] == Garbled ==>
              r == ReadError(ReadFileFailed)
    ensures s.archive.Some? && name in s.archive.value && s.archive.value[name].Holds? ==>
              r == Found(clock, Some(name), s.archive.value[name].payload)
  {
    if s.archive.None? || name !in s.archive.value then NotFound("Results file " + name + " not found")
    else match s.archive.value[name]
      case Garbled => ReadError(ReadFileFailed)
      case Holds(p) => Found(clock, Some(name), p)
  }

  datatype ListResponse = Listing(message: Option<string>, files: seq<Archive.DirEntry>)

  /** What `statSync` reports for a file: size and times in milliseconds. */
  datatype Stat = Stat(size: int, created: int, modified: int)

  /** `names` is a `readdirSync` result for `dir`: every file once, in some order. */
  ghost predicate ReaddirOf(names: seq<string>, dir: map<string, Stored>)
  {
    && (forall n :: n in names <==> n in dir)
    && forall i, j :: 0 <= i < j < |names| ==> names[i] != names[j]
  }

  /** The `{ filename, size, created, modified }` objects for `names`. */
  function Entries(names: seq<string>, stat: string -> Stat): (es: seq<Archive.DirEntry>)
    ensures |es| == |names|
    ensures forall i :: 0 <= i < |names| ==>
              es[i] == Archive.DirEntry(names[i], stat(names[i]).size, stat(names[i]).created, stat(names[i]).modified)
  {
    seq(|names|, i requires 0 <= i < |names| =>
      Archive.DirEntry(names[i], stat(names[i]).size, stat(names[i]).created, stat(names[i]).modified))
  }

  /**
   * `GET /results-list`: a missing results directory gives an empty list;
   * otherwise the directory is read in the order `names` (which `readdirSync`
   * chooses) and each file is stat-ed through `stat`.
   */
  function ListResults(s: Store, names: seq<string>, stat: string -> Stat): (r: ListResponse)
    ensures s.archive.None? <==> r == Listing(Some(NoResultsDir), [])
    ensures s.archive.Some? ==> r.message.None?
    ensures s.archive.Some? ==> Archive.NewestFirst(r.files)
    ensures s.archive.Some? ==>
              forall e :: multiset(r.files)[e] ==
                (if Strings.EndsWith(e.filename, Archive.Extension) then multiset(Entries(names, stat))[e] else 0)
  {
    if s.archive.None? then Listing(Some(NoResultsDir), [])
    else
      Archive.JsonFilesCounts(Entries(names, stat));
      Listing(None, Archive.SortNewestFirst(Archive.JsonFiles(Entries(names, stat))))
  }

  // ---------------------------------------------------------------------
  // Properties of the pipeline

  /** What a successful run wrote is what both queries read back. */
  lemma TriggerRoundTrip(s: Store, req: RunRequest, env: Env, clock: string)
    requires Trigger(s, req, env).response.TriggerSucceeded?
    ensures var o := Trigger(s, req, env);
            && GetArchived(o.store, o.response.resultsFile, clock) == Found(clock, Some(o.response.resultsFile), o.response.data)
            && GetLatest(o.store, clock) == Found(clock, None, o.response.data)
  {
  }

  /** How the callback delivery ends never changes the response or the files. */
  lemma DeliveryIgnored(s: Store, req: RunRequest, env: Env, d: Delivery)
    ensures Trigger(s, req, env) == Trigger(s, req, env.(delivery := d))
  {
  }

  /**
   * Error precedence: the run succeeds exactly when the save, the results
   * file, the parse and the three writes all go through.
   */
  lemma TriggerSucceedsIff(s: Store, req: RunRequest, env: Env)
    ensures Trigger(s, req, env).response.TriggerSucceeded? <==>
              && !env.faults.saveFails
              && Parse(ResultsAfterRun(s, env.runner), env.runner.shots).Parsed?
              && !(s.archive.None? && env.faults.mkdirFails)
              && !env.faults.archiveWriteFails
              && !env.faults.latestWriteFails
  {
  }

  /**
   * The handler only checks that `test-results.json` exists: when the runner
   * writes no report, a report left by an earlier run is parsed, against the
   * screenshot files the run left, and archived as this run's result.
   */
  lemma StaleReportReused(s: Store, req: RunRequest, env: Env, p: Payload)
    requires env.runner.report.None?
    requires env.faults == Faults(false, false, false, false)
    requires s.testResults.Some? && ParseResults(s.testResults.value, env.runner.shots) == Parsed(p)
    ensures Trigger(s, req, env).response == TriggerSucceeded(req.projectId, env.replyClock, Archive.ArchiveName(env.clock), p)
  {
  }

  /**
   * The working file the handler saves is what the test-data helper loads
   * during the run: its `tests` array becomes the store keyed by test id,
   * and a request without a truthy `tests` is used as the store itself.
   */
  lemma SavedRequestFeedsTestData(s: Store, req: RunRequest, env: Env, fallback: TestDataHelper.FileState)
    requires !env.faults.saveFails
    ensures var saved := TestDataHelper.Present(Trigger(s, req, env).store.workingFile.value);
            var loaded := TestDataHelper.LoadTestData(saved, fallback);
            && (req.tests.Some? && req.tests.value.Arr? && TestDataHelper.NoNulls(req.tests.value.items) ==>
                  loaded == Ok(Obj(TestDataHelper.Build(req.tests.value.items))))
            && (!Truthy(req.tests) ==> loaded == Ok(RequestJson(req)))
  {
    assert Trigger(s, req, env).store.workingFile == Some(RequestJson(req));
    LoadSavedRequest(req, fallback);
  }

  /** Loading the working file written for `req`. */
  lemma LoadSavedRequest(req: RunRequest, fallback: TestDataHelper.FileState)
    ensures var loaded := TestDataHelper.LoadTestData(TestDataHelper.Present(RequestJson(req)), fallback);
            && (req.tests.Some? && req.tests.value.Arr? && TestDataHelper.NoNulls(req.tests.value.items) ==>
                  loaded == Ok(Obj(TestDataHelper.Build(req.tests.value.items))))
            && (!Truthy(req.tests) ==> loaded == Ok(RequestJson(req)))
  {
    NoTestDataField(req);
    LoadRequestShaped(RequestJson(req), req.tests, fallback);
  }

  /** `loadTestData` on any object without `testData` whose `tests` is `tests`. */
  lemma LoadRequestShaped(j: Json, tests: Option<Json>, fallback: TestDataHelper.FileState)
    requires j.Obj? && Prop(j, "testData").None? && Prop(j, "tests") == tests
    ensures tests.Some? && tests.value.Arr? && TestDataHelper.NoNulls(tests.value.items) ==>
              TestDataHelper.LoadTestData(TestDataHelper.Present(j), fallback) == Ok(Obj(TestDataHelper.Build(tests.value.items)))
    ensures !Truthy(tests) ==> TestDataHelper.LoadTestData(TestDataHelper.Present(j), fallback) == Ok(j)
  {
  }

  /** The saved request never has a `testData` field, so `loadTestData` looks at `tests` next. */
  lemma NoTestDataField(req: RunRequest)
    ensures Prop(RequestJson(req), "testData").None?
  {
    var j := RequestJson(req);
    GetDefined(j.fields, "testData");
    assert "testData" !in ["projectId", "tests", "callbackUrl"];
  }

  /**
   * The saved working file passes `validateTestData` exactly when the
   * request carried a truthy `tests`: none of its keys is a test-case key.
   */
  lemma SavedRequestValidates(req: RunRequest)
    ensures TestDataHelper.ValidateTestData(RequestJson(req)).Valid? <==> Truthy(req.tests)
  {
    NoTestDataField(req);
    ValidateRequestShaped(RequestJson(req), req.tests);
  }

  /** `validateTestData` on any object keyed only by the request's field names. */
  lemma ValidateRequestShaped(j: Json, tests: Option<Json>)
    requires j.Obj? && Prop(j, "testData").None? && Prop(j, "tests") == tests
    requires forall k :: k in Keys(j.fields) ==> k in ["projectId", "tests", "callbackUrl"]
    ensures TestDataHelper.ValidateTestData(j).Valid? <==> Truthy(tests)
  {
    forall k | k in OwnKeys(j)
      ensures !Strings.StartsWith(k, "TC") && !Strings.StartsWith(k, "EDGE")
    {
      assert k in ["projectId", "tests", "callbackUrl"];
      assert k[0] != 'T' && k[0] != 'E';
    }
  }

  /**
   * The file a successful run archived shows up in `/results-list`, with the
   * times `stat` reports for it, whatever order the directory is read in.
   */
  lemma ArchivedFileListed(s: Store, req: RunRequest, env: Env, names: seq<string>, stat: string -> Stat)
    requires var o := Trigger(s, req, env).store; o.archive.Some? && ReaddirOf(names, o.archive.value)
    ensures var o := Trigger(s, req, env);
            o.response.TriggerSucceeded? ==>
              var name := o.response.resultsFile;
              Archive.DirEntry(name, stat(name).size, stat(name).created, stat(name).modified)
                in ListResults(o.store, names, stat).files
  {
    var o := Trigger(s, req, env);
    if o.response.TriggerSucceeded? {
      var name := o.response.resultsFile;
      var e := Archive.DirEntry(name, stat(name).size, stat(name).created, stat(name).modified);
      assert name in names;
      var i :| 0 <= i < |names| && names[i] == name;
      var es := Entries(names, stat);
      assert es[i] == e;
      assert multiset(es)[e] > 0;
      assert multiset(ListResults(o.store, names, stat).files)[e] == multiset(es)[e];
    }
  }

  /**
   * The listing is the stable newest-first sort: any newest-first
   * arrangement of the `.json` entries that keeps entries with equal times
   * in directory order is exactly what `/results-list` answers.
   */
  lemma ListingIsStableSort(s: Store, names: seq<string>, stat: string -> Stat, other: seq<Archive.DirEntry>)
    requires s.archive.Some?
    requires Archive.NewestFirst(other)
    requires forall m :: Archive.WithModified(other, m) == Archive.WithModified(Archive.JsonFiles(Entries(names, stat)), m)
    ensures ListResults(s, names, stat).files == other
  {
    var files := ListResults(s, names, stat).files;
    forall m ensures Archive.WithModified(files, m) == Archive.WithModified(other, m) {
      Archive.SortStable(Archive.JsonFiles(Entries(names, stat)), m);
    }
    Archive.NewestFirstUnique(files, other);
  }

  /** A sequence of trigger requests, each with its environment, run one after another. */
  function RunAll(s: Store, steps: seq<(RunRequest, Env)>): Store
    decreases |steps|
  {
    if |steps| == 0 then s
    else RunAll(Trigger(s, steps[0].0, steps[0].1).store, steps[1..])
  }

  /** Archived reports are never deleted: every name stays listed across any run sequence. */
  lemma {:induction false} ArchiveOnlyGrows(s: Store, steps: seq<(RunRequest, Env)>)
    requires s.archive.Some?
    ensures RunAll(s, steps).archive.Some?
    ensures s.archive.value.Keys <= RunAll(s, steps).archive.value.Keys
    decreases |steps|
  {
    if |steps| > 0 {
      var s' := Trigger(s, steps[0].0, steps[0].1).store;
      ArchiveOnlyGrows(s', steps[1..]);
    }
  }
}

=== FILE: strings.dfy ===
/**
 * The handful of JavaScript string operations the repository relies on:
 * `indexOf`/`includes`, `replace` with a string pattern, `trim`,
 * `split(' ')[0]`, `startsWith`/`endsWith` and decimal rendering of numbers.
 */
module Strings {
  import opened Common

  /** `pat` occurs in `s` starting at position `i`. */
  ghost predicate OccursAt(s: string, pat: string, i: int)
  {
    0 <= i && i + |pat| <= |s| && s[i..i + |pat|] == pat
  }

  /** `s.includes(pat)`, stated without an algorithm. */
  ghost predicate Contains(s: string, pat: string)
  {
    exists i :: OccursAt(s, pat, i)
  }

  /** The first occurrence of `pat` at or after position `k`. */
  function IndexFrom(s: string, pat: string, k: nat): (r: Option<nat>)
    decreases |s| - k
    ensures r.Some? ==> k <= r.value && OccursAt(s, pat, r.value)
    ensures r.Some? ==> forall j :: k <= j < r.value ==> !OccursAt(s, pat, j)
    ensures r.None? ==> forall j :: k <= j ==> !OccursAt(s, pat, j)
  {
    if k + |pat| > |s| then None
    else if s[k..k + |pat|] == pat then Some(k)
    else IndexFrom(s, pat, k + 1)
  }

  /** `s.indexOf(pat)`, with `None` for JavaScript's -1. */
  function IndexOf(s: string, pat: string): (r: Option<nat>)
    ensures r.Some? ==> OccursAt(s, pat, r.value)
    ensures r.Some? ==> forall j :: 0 <= j < r.value ==> !OccursAt(s, pat, j)
    ensures r.None? <==> !Contains(s, pat)
  {
    IndexFrom(s, pat, 0)
  }

  /** `s.includes(pat)`: executable and equal to `Contains`. */
  predicate Includes(s: string, pat: string)
  {
    IndexOf(s, pat).Some?
  }

  lemma IncludesEmpty(s: string)
    ensures Includes(s, "")
  {
    assert OccursAt(s, "", 0);
  }

  /**
   * `s.replace(from, to)` with a string pattern: only the first occurrence
   * is replaced, and a string without an occurrence is returned unchanged.
   */
  function ReplaceFirst(s: string, from: string, to: string): (r: string)
    ensures !Contains(s, from) ==> r == s
    ensures forall i :: OccursAt(s, from, i) && (forall j :: 0 <= j < i ==> !OccursAt(s, from, j)) ==>
              r == s[..i] + to + s[i + |from|..]
  {
    match IndexOf(s, from)
    case None => s
    case Some(k) =>
      assert forall i :: OccursAt(s, from, i) && (forall j :: 0 <= j < i ==> !OccursAt(s, from, j)) ==> i == k by {
        forall i | OccursAt(s, from, i) && (forall j :: 0 <= j < i ==> !OccursAt(s, from, j)) ensures i == k {
          FirstOccurrence(s, from, i);
        }
      }
      s[..k] + to + s[k + |from|..]
  }

  /** The first position where `pat` occurs is what `indexOf` reports. */
  lemma FirstOccurrence(s: string, pat: string, i: int)
    requires OccursAt(s, pat, i)
    requires forall j :: 0 <= j < i ==> !OccursAt(s, pat, j)
    ensures IndexOf(s, pat) == Some(i)
  {
    assert Contains(s, pat);
  }

  /** `s.startsWith(p)`. */
  predicate StartsWith(s: string, p: string)
  {
    p <= s
  }

  /** `s.endsWith(p)`. */
  predicate EndsWith(s: string, p: string)
  {
    |p| <= |s| && s[|s| - |p|..] == p
  }

  /** `s.split(c)[0]`: everything before the first `c`, or all of `s`. */
  function Before(s: string, c: char): (r: string)
    ensures r <= s
    ensures c !in r
    ensures |r| < |s| ==> s[|r|] == c
  {
    if |s| == 0 || s[0] == c then ""
    else [s[0]] + Before(s[1..], c)
  }

  /**
   * The characters `String.prototype.trim` removes: the ECMAScript
   * WhiteSpace and LineTerminator code points.
   */
  predicate IsSpace(c: char)
  {
    || '\t' <= c <= '\r'                  // tab, line feed, vertical tab, form feed, carriage return
    || c == ' ' || c == '\U{00A0}' || c == '\U{1680}'
    || '\U{2000}' <= c <= '\U{200A}'
    || c == '\U{2028}' || c == '\U{2029}' || c == '\U{202F}' || c == '\U{205F}'
    || c == '\U{3000}' || c == '\U{FEFF}'
  }

  ghost predicate AllSpace(s: string)
  {
    forall i :: 0 <= i < |s| ==> IsSpace(s[i])
  }

  /** The first position at or after `k` that does not hold white space. */
  function LeadFrom(s: string, k: nat): (n: nat)
    requires k <= |s|
    ensures k <= n <= |s|
    ensures forall i :: k <= i < n ==> IsSpace(s[i])
    ensures n == |s| || !IsSpace(s[n])
    decreases |s| - k
  {
    if k == |s| || !IsSpace(s[k]) then k else LeadFrom(s, k + 1)
  }

  /** The end of the text before `k`, once trailing white space is dropped. */
  function TrailTo(s: string, k: nat): (n: nat)
    requires k <= |s|
    ensures n <= k
    ensures forall i :: n <= i < k ==> IsSpace(s[i])
    ensures n == 0 || !IsSpace(s[n - 1])
    decreases k
  {
    if k == 0 || !IsSpace(s[k - 1]) then k else TrailTo(s, k - 1)
  }

  /** `s.trim()`. */
  function Trim(s: string): string
  {
    var a := LeadFrom(s, 0);
    if a == |s| then ""
    else
      var b := TrailTo(s, |s|);
      assert a < b;
      s[a..b]
  }

  /** Any index with only white space before it and none at it is where the leading run ends. */
  lemma {:induction false} LeadIs(s: string, n: nat)
    requires n <= |s|
    requires forall i :: 0 <= i < n ==> IsSpace(s[i])
    requires n == |s| || !IsSpace(s[n])
    ensures LeadFrom(s, 0) == n
  {
  }

  /** Any index with only white space after it and none just before it is where the trailing run starts. */
  lemma {:induction false} TrailIs(s: string, n: nat)
    requires n <= |s|
    requires forall i :: n <= i < |s| ==> IsSpace(s[i])
    requires n == 0 || !IsSpace(s[n - 1])
    ensures TrailTo(s, |s|) == n
  {
  }

  /** `trim` returns the infix of `s` left after removing white space at both ends. */
  lemma {:induction false} TrimShape(s: string)
    ensures var r := Trim(s);
            (r == [] || (!IsSpace(r[0]) && !IsSpace(r[|r| - 1]))) &&
            exists a :: 0 <= a <= |s| - |r| && s[a..a + |r|] == r && AllSpace(s[..a]) && AllSpace(s[a + |r|..])
  {
    var a := LeadFrom(s, 0);
    if a == |s| {
      assert s[a..a] == [];
      assert AllSpace(s[..a]);
    } else {
      var b := TrailTo(s, |s|);
      assert s[a..b] == Trim(s);
      assert AllSpace(s[..a]);
      assert AllSpace(s[b..]);
    }
  }

  /** Surrounding white space never changes what `trim` returns. */
  lemma {:induction false} TrimIgnoresPadding(pre: string, x: string, post: string)
    requires AllSpace(pre) && AllSpace(post)
    ensures Trim(pre + x + post) == Trim(x)
  {
    if LeadFrom(x, 0) == |x| {
      TrimPaddedBlank(pre, x, post);
    } else {
      TrimPaddedText(pre, x, post);
    }
  }

  /** Trimming twice is trimming once: what `trim` returns has nothing left to strip. */
  lemma {:induction false} TrimIdempotent(s: string)
    ensures Trim(Trim(s)) == Trim(s)
  {
    var r := Trim(s);
    TrimShape(s);
    if r != [] {
      TrimAt(r, 0, |r|);
    }
  }

  lemma {:induction false} TrimPaddedBlank(pre: string, x: string, post: string)
    requires AllSpace(pre) && AllSpace(post)
    requires LeadFrom(x, 0) == |x|
    ensures Trim(pre + x + post) == Trim(x) == ""
  {
    var s := pre + x + post;
    forall i | 0 <= i < |s| ensures IsSpace(s[i]) {
      SpaceInPadding(pre, x, post, i);
    }
    LeadIs(s, |s|);
  }

  lemma {:induction false} TrimPaddedText(pre: string, x: string, post: string)
    requires AllSpace(pre) && AllSpace(post)
    requires LeadFrom(x, 0) < |x|
    ensures Trim(pre + x + post) == Trim(x)
  {
    var a, b := LeadFrom(x, 0), TrailTo(x, |x|);
    TextBounds(x);
    PaddedLeading(pre, x, post, a);
    PaddedTrailing(pre, x, post, b);
    MiddleOfPadded(pre, x, post, a, b);
    TrimAt(pre + x + post, |pre| + a, |pre| + b);
  }

  /** On a string that is not all white space, `trim` keeps the stretch between the two scans. */
  lemma TextBounds(x: string)
    requires LeadFrom(x, 0) < |x|
    ensures LeadFrom(x, 0) < TrailTo(x, |x|)
    ensures Trim(x) == x[LeadFrom(x, 0)..TrailTo(x, |x|)]
    ensures !IsSpace(x[LeadFrom(x, 0)]) && !IsSpace(x[TrailTo(x, |x|) - 1])
  {
  }

  lemma {:induction false} PaddedLeading(pre: string, x: string, post: string, a: nat)
    requires AllSpace(pre) && a <= |x|
    requires forall i :: 0 <= i < a ==> IsSpace(x[i])
    ensures forall i :: 0 <= i < |pre| + a ==> IsSpace((pre + x + post)[i])
  {
    forall i | 0 <= i < |pre| + a ensures IsSpace((pre + x + post)[i]) {
      SpaceInPadding(pre, x, post, i);
    }
  }

  lemma {:induction false} PaddedTrailing(pre: string, x: string, post: string, b: nat)
    requires AllSpace(post) && b <= |x|
    requires forall i :: b <= i < |x| ==> IsSpace(x[i])
    ensures forall i :: |pre| + b <= i < |pre + x + post| ==> IsSpace((pre + x + post)[i])
  {
    forall i | |pre| + b <= i < |pre + x + post| ensures IsSpace((pre + x + post)[i]) {
      SpaceInPadding(pre, x, post, i);
    }
  }

  /** `trim` keeps exactly the stretch from the first to the last non-white-space character. */
  lemma {:induction false} TrimAt(s: string, a: nat, b: nat)
    requires a < b <= |s|
    requires forall i :: 0 <= i < a ==> IsSpace(s[i])
    requires forall i :: b <= i < |s| ==> IsSpace(s[i])
    requires !IsSpace(s[a]) && !IsSpace(s[b - 1])
    ensures Trim(s) == s[a..b]
  {
    LeadIs(s, a);
    TrailIs(s, b);
  }

  lemma {:induction false} MiddleOfPadded(pre: string, x: string, post: string, a: nat, b: nat)
    requires a <= b <= |x|
    ensures (pre + x + post)[|pre| + a..|pre| + b] == x[a..b]
    ensures a < b ==> (pre + x + post)[|pre| + a] == x[a] && (pre + x + post)[|pre| + b - 1] == x[b - 1]
  {
    var s := pre + x + post;
    assert s[|pre|..|pre| + |x|] == x;
    assert s[|pre| + a..|pre| + b] == s[|pre|..|pre| + |x|][a..b];
  }

  /** A position of `pre + x + post` outside `x`'s white space-only stretches reads from the padding. */
  lemma {:induction false} SpaceInPadding(pre: string, x: string, post: string, i: nat)
    requires i < |pre| ==> IsSpace(pre[i])
    requires |pre| <= i < |pre| + |x| ==> IsSpace(x[i - |pre|])
    requires |pre| + |x| <= i < |pre| + |x| + |post| ==> IsSpace(post[i - |pre| - |x|])
    requires i < |pre| + |x| + |post|
    ensures IsSpace((pre + x + post)[i])
  {
    var s := pre + x + post;
    if i < |pre| {
      assert s[i] == pre[i];
    } else if i < |pre| + |x| {
      assert s[i] == x[i - |pre|];
    } else {
      assert s[i] == post[i - |pre| - |x|];
    }
  }

  /** A decimal digit character. */
  function DigitChar(d: nat): (c: char)
    requires d < 10
    ensures '0' <= c <= '9'
  {
    "0123456789"[d]
  }

  function DigitValue(c: char): nat
  {
    if '0' <= c <= '9' then (c as int - '0' as int) as nat else 0
  }

  /** The decimal rendering JavaScript gives a non-negative integer. */
  function NatToString(n: nat): (r: string)
    ensures |r| > 0
    ensures forall i :: 0 <= i < |r| ==> '0' <= r[i] <= '9'
    decreases n
  {
    if n < 10 then [DigitChar(n)] else NatToString(n / 10) + [DigitChar(n % 10)]
  }

  /** The decimal rendering JavaScript gives an integer. */
  function IntToString(n: int): string
  {
    if n < 0 then "-" + NatToString(-n) else NatToString(n)
  }

  /** Reads a string of decimal digits back as a number. */
  function ParseNat(s: string): nat
  {
    if |s| == 0 then 0 else ParseNat(s[..|s| - 1]) * 10 + DigitValue(s[|s| - 1])
  }

  lemma {:induction false} ParseNatToString(n: nat)
    ensures ParseNat(NatToString(n)) == n
  {
    if n < 10 {
      DigitRoundTrip(n);
      assert NatToString(n) == [DigitChar(n)];
      assert ParseNat([DigitChar(n)]) == ParseNat([]) * 10 + DigitValue(DigitChar(n));
    } else {
      var s := NatToString(n / 10) + [DigitChar(n % 10)];
      assert NatToString(n) == s;
      assert s[..|s| - 1] == NatToString(n / 10);
      assert ParseNat(s) == ParseNat(NatToString(n / 10)) * 10 + DigitValue(DigitChar(n % 10));
      ParseNatToString(n / 10);
      DigitRoundTrip(n % 10);
    }
  }

  lemma DigitRoundTrip(d: nat)
    requires d < 10
    ensures DigitValue(DigitChar(d)) == d
  {
    assert "0123456789"[d] as int == '0' as int + d;
  }

  /** Distinct numbers never render to the same decimal string. */
  lemma NatToStringInjective(m: nat, n: nat)
    requires NatToString(m) == NatToString(n)
    ensures m == n
  {
    ParseNatToString(m);
    ParseNatToString(n);
  }
}

=== FILE: test_data_helper.dfy ===
/**
 * The test-data store of utils/TestDataHelper.js: choosing the payload format
 * of the run-scoped data file (or falling back to the static one), turning a
 * `tests` array into an object keyed by test id, and the lookups the UI
 * scripts make against it.
 *
 * File reading and JSON parsing are abstracted into `FileState`; a thrown
 * exception is an `Err`.
 */
module TestDataHelper {
  import opened Common
  import opened Json
  import Strings

  /** A data file as `existsSync` + `readFileSync` + `JSON.parse` see it. */
  datatype FileState = Absent | Corrupt | Present(content: Json)

  /** The exceptions the helper lets escape. */
  datatype Fault =
    | LoadFailed                 // "Failed to load test data: ..."
    | TypeError                  // a property read on `null`
    | NotFound(id: string)       // "Test data not found for ID: <id>"

  datatype Validation = Valid | Invalid(message: string)

  const NotAnObject := "Test data must be an object"
  const BadFormat := "Invalid test data format. Expected test cases (TC*) or testData/tests properties"

  // ---------------------------------------------------------------------
  // convertTestsArrayToObject

  /** The key element `i` is stored under: `testId`, else `id`, else `TC<i+1>`. */
  function KeyFor(t: Json, i: nat): (k: string)
    requires !t.Null?
    ensures Truthy(Prop(t, "testId")) ==> k == ToKey(Prop(t, "testId").value)
    ensures !Truthy(Prop(t, "testId")) && Truthy(Prop(t, "id")) ==> k == ToKey(Prop(t, "id").value)
    ensures !Truthy(Prop(t, "testId")) && !Truthy(Prop(t, "id")) ==> k == "TC" + Strings.NatToString(i + 1)
  {
    var testId := Prop(t, "testId");
    var id := Prop(t, "id");
    if Truthy(testId) then ToKey(testId.value)
    else if Truthy(id) then ToKey(id.value)
    else "TC" + Strings.NatToString(i + 1)
  }

  /**
   * Elements with neither a truthy `testId` nor a truthy `id` fall back to
   * `TC<index+1>`, and two of them share a key only at the same position.
   */
  lemma DefaultKeysDistinct(t1: Json, i: nat, t2: Json, j: nat)
    requires !t1.Null? && !Truthy(Prop(t1, "testId")) && !Truthy(Prop(t1, "id"))
    requires !t2.Null? && !Truthy(Prop(t2, "testId")) && !Truthy(Prop(t2, "id"))
    ensures KeyFor(t1, i) == KeyFor(t2, j) <==> i == j
  {
    if KeyFor(t1, i) == KeyFor(t2, j) {
      var a, b := Strings.NatToString(i + 1), Strings.NatToString(j + 1);
      assert a == ("TC" + a)[2..] && b == ("TC" + b)[2..];
      Strings.NatToStringInjective(i + 1, j + 1);
    }
  }

  /** No element is `null`, so every `test.testId` read succeeds. */
  predicate NoNulls(items: seq<Json>)
  {
    forall i :: 0 <= i < |items| ==> !items[i].Null?
  }

  /** Element `i` is the last one stored under its key. */
  ghost predicate LastWithKey(items: seq<Json>, i: nat)
    requires NoNulls(items) && i < |items|
  {
    forall j :: i < j < |items| ==> KeyFor(items[j], j) != KeyFor(items[i], i)
  }

  /**
   * An object built by assigning `vs[i]` to key `ks[i]` in order: later
   * assignments to a key overwrite earlier ones.
   */
  function Assemble(ks: seq<string>, vs: seq<Json>): (r: seq<Field>)
    requires |ks| == |vs|
    ensures UniqueKeys(r)
    ensures |r| <= |ks|
  {
    PrefixUnique(ks, vs, |ks|);
    PrefixSize(ks, vs, |ks|);
    AssemblePrefix(ks, vs, |ks|)
  }

  /** The object after the first `n` assignments. */
  function AssemblePrefix(ks: seq<string>, vs: seq<Json>, n: nat): (r: seq<Field>)
    requires |ks| == |vs| && n <= |ks|
    decreases n
  {
    if n == 0 then [] else Put(AssemblePrefix(ks, vs, n - 1), ks[n - 1], vs[n - 1])
  }

  /** Each assignment adds at most one field. */
  lemma {:induction false} PrefixSize(ks: seq<string>, vs: seq<Json>, n: nat)
    requires |ks| == |vs| && n <= |ks|
    ensures |AssemblePrefix(ks, vs, n)| <= n
    decreases n
  {
    if n > 0 {
      PrefixSize(ks, vs, n - 1);
      PutKeys(AssemblePrefix(ks, vs, n - 1), ks[n - 1], vs[n - 1]);
    }
  }

  /** Assignment never duplicates a key. */
  lemma {:induction false} PrefixUnique(ks: seq<string>, vs: seq<Json>, n: nat)
    requires |ks| == |vs| && n <= |ks|
    ensures UniqueKeys(AssemblePrefix(ks, vs, n))
    decreases n
  {
    if n > 0 {
      PrefixUnique(ks, vs, n - 1);
      PutKeepsKeysUnique(AssemblePrefix(ks, vs, n - 1), ks[n - 1], vs[n - 1]);
    }
  }

  lemma {:induction false} PrefixKeys(ks: seq<string>, vs: seq<Json>, n: nat)
    requires |ks| == |vs| && n <= |ks|
    ensures forall k :: k in Keys(AssemblePrefix(ks, vs, n)) <==> exists j :: 0 <= j < n && ks[j] == k
    decreases n
  {
    if n > 0 {
      var acc := AssemblePrefix(ks, vs, n - 1);
      var r := Put(acc, ks[n - 1], vs[n - 1]);
      assert AssemblePrefix(ks, vs, n) == r;
      PrefixKeys(ks, vs, n - 1);
      PutKeys(acc, ks[n - 1], vs[n - 1]);
      forall k ensures k in Keys(r) <==> exists j :: 0 <= j < n && ks[j] == k {
        if k in Keys(r) && k != ks[n - 1] {
          assert k in Keys(acc);
          var j :| 0 <= j < n - 1 && ks[j] == k;
          assert 0 <= j < n && ks[j] == k;
        }
        if exists j :: 0 <= j < n && ks[j] == k {
          var j :| 0 <= j < n && ks[j] == k;
          if j < n - 1 {
            assert k in Keys(acc);
          }
        }
      }
    }
  }

  /** The assembled object's keys are exactly the assigned keys. */
  lemma AssembleKeys(ks: seq<string>, vs: seq<Json>)
    requires |ks| == |vs|
    ensures forall k :: k in Keys(Assemble(ks, vs)) <==> k in ks
  {
    PrefixKeys(ks, vs, |ks|);
  }

  lemma {:induction false} PrefixLastWins(ks: seq<string>, vs: seq<Json>, n: nat, i: nat)
    requires |ks| == |vs| && i < n <= |ks|
    requires forall j :: i < j < n ==> ks[j] != ks[i]
    ensures Get(AssemblePrefix(ks, vs, n), ks[i]) == Some(vs[i])
    decreases n
  {
    var k := ks[i];
    PrefixStep(ks, vs, n, k);
    if i < n - 1 {
      assert ks[n - 1] != k;
      PrefixLastWins(ks, vs, n - 1, i);
      assert Get(AssemblePrefix(ks, vs, n), k) == Get(AssemblePrefix(ks, vs, n - 1), k);
    }
  }

  /** One more assignment: its key reads the assigned value, every other key reads as before. */
  lemma PrefixStep(ks: seq<string>, vs: seq<Json>, n: nat, q: string)
    requires |ks| == |vs| && 0 < n <= |ks|
    ensures Get(AssemblePrefix(ks, vs, n), q) ==
              if q == ks[n - 1] then Some(vs[n - 1]) else Get(AssemblePrefix(ks, vs, n - 1), q)
  {
    assert AssemblePrefix(ks, vs, n) == Put(AssemblePrefix(ks, vs, n - 1), ks[n - 1], vs[n - 1]);
  }

  /** The value a key ends up with is the one assigned last. */
  lemma AssembleLastWins(ks: seq<string>, vs: seq<Json>, i: nat)
    requires |ks| == |vs| && i < |ks|
    requires forall j :: i < j < |ks| ==> ks[j] != ks[i]
    ensures Get(Assemble(ks, vs), ks[i]) == Some(vs[i])
  {
    PrefixLastWins(ks, vs, |ks|, i);
  }

  /** The key of every element, in array order. */
  function KeyList(items: seq<Json>): (ks: seq<string>)
    requires NoNulls(items)
    ensures |ks| == |items|
    ensures forall i :: 0 <= i < |items| ==> ks[i] == KeyFor(items[i], i)
  {
    seq(|items|, i requires 0 <= i < |items| => KeyFor(items[i], i))
  }

  /** The object `forEach` builds from the array. */
  function Build(items: seq<Json>): seq<Field>
    requires NoNulls(items)
  {
    Assemble(KeyList(items), items)
  }

  /**
   * `convertTestsArrayToObject` keeps one key per distinct element key, so
   * the object never has more keys than the array has elements, and each
   * key holds the last element stored under it.
   */
  lemma {:induction false} BuildContents(items: seq<Json>)
    requires NoNulls(items)
    ensures UniqueKeys(Build(items))
    ensures |Keys(Build(items))| <= |items|
    ensures forall k :: k in Keys(Build(items)) <==> exists i :: 0 <= i < |items| && KeyFor(items[i], i) == k
    ensures forall i :: 0 <= i < |items| && LastWithKey(items, i) ==> Get(Build(items), KeyFor(items[i], i)) == Some(items[i])
  {
    var ks := KeyList(items);
    AssembleKeys(ks, items);
    forall k ensures k in ks <==> exists i :: 0 <= i < |items| && KeyFor(items[i], i) == k {
      if k in ks {
        var i :| 0 <= i < |ks| && ks[i] == k;
      }
    }
    forall i | 0 <= i < |items| && LastWithKey(items, i)
      ensures Get(Build(items), KeyFor(items[i], i)) == Some(items[i])
    {
      AssembleLastWins(ks, items, i);
    }
  }

  /** `convertTestsArrayToObject`: a `null` element makes it throw. */
  function ConvertTestsArrayToObject(items: seq<Json>): (r: Result<seq<Field>, Fault>)
    ensures r.Ok? <==> NoNulls(items)
    ensures r.Err? ==> r.error == TypeError
    ensures r.Ok? ==> r.value == Build(items)
  {
    if NoNulls(items) then Ok(Build(items)) else Err(TypeError)
  }

  // ---------------------------------------------------------------------
  // loadTestData

  /**
   * `loadTestData`: the run-scoped file wins when it exists; its `testData`
   * field, else its `tests` array, else the payload itself becomes the store.
   * Every failure is rethrown as "Failed to load test data".
   */
  function LoadTestData(dynamic: FileState, fallback: FileState): (r: Result<Json, Fault>)
    ensures r.Err? ==> r.error == LoadFailed
    ensures dynamic.Absent? ==> r == (if fallback.Present? then Ok(fallback.content) else Err(LoadFailed))
    ensures dynamic.Corrupt? || dynamic == Present(Null) ==> r.Err?
    ensures dynamic.Present? && dynamic.content != Null && Truthy(Prop(dynamic.content, "testData")) ==>
              r == Ok(Prop(dynamic.content, "testData").value)
    ensures dynamic.Present? && dynamic.content != Null && !Truthy(Prop(dynamic.content, "testData")) &&
              Truthy(Prop(dynamic.content, "tests")) ==>
              (r.Ok? <==> Prop(dynamic.content, "tests").value.Arr? && NoNulls(Prop(dynamic.content, "tests").value.items))
    ensures dynamic.Present? && dynamic.content != Null && !Truthy(Prop(dynamic.content, "testData")) &&
              Truthy(Prop(dynamic.content, "tests")) && Prop(dynamic.content, "tests").value.Arr? &&
              NoNulls(Prop(dynamic.content, "tests").value.items) ==>
              r == Ok(Obj(Build(Prop(dynamic.content, "tests").value.items)))
    ensures dynamic.Present? && dynamic.content != Null &&
              !Truthy(Prop(dynamic.content, "testData")) && !Truthy(Prop(dynamic.content, "tests")) ==>
              r == Ok(dynamic.content)
    ensures r.Ok? && dynamic.Present? ==> r.value != Null
  {
    match dynamic
    case Absent =>
      if fallback.Present? then Ok(fallback.content) else Err(LoadFailed)
    case Corrupt => Err(LoadFailed)
    case Present(d) =>
      if d.Null? then Err(LoadFailed)
      else if Truthy(Prop(d, "testData")) then Ok(Prop(d, "testData").value)
      else if Truthy(Prop(d, "tests")) then
        match Prop(d, "tests").value
        case Arr(items) =>
          (match ConvertTestsArrayToObject(items)
           case Ok(fs) => Ok(Obj(fs))
           case Err(_) => Err(LoadFailed))
        case _ => Err(LoadFailed)   // `tests.forEach` is not a function
      else Ok(d)
  }

  // ---------------------------------------------------------------------
  // Lookups against a loaded store

  /** `store[key]` for a non-null store. */
  function Lookup(store: Json, key: string): Option<Json>
  {
    Prop(store, key)
  }

  /** `getTestDataById`: the trimmed id must name a truthy value. */
  function GetTestDataById(store: Json, id: string): (r: Result<Json, Fault>)
    ensures store.Null? ==> r == Err(TypeError)
    ensures !store.Null? ==> (r.Ok? <==> Truthy(Lookup(store, Strings.Trim(id))))
    ensures r.Ok? ==> Lookup(store, Strings.Trim(id)) == Some(r.value) && Strings.Trim(id) in OwnKeys(store)
    ensures !store.Null? && r.Err? ==> r.error == NotFound(Strings.Trim(id))
  {
    var key := Strings.Trim(id);
    if store.Null? then Err(TypeError)
    else
      var v := Lookup(store, key);
      assert v.Some? ==> key in OwnKeys(store) by {
        if store.Obj? { GetDefined(store.fields, key); }
      }
      if Truthy(v) then Ok(v.value) else Err(NotFound(key))
  }

  /** Leading and trailing white space in the requested id changes nothing. */
  lemma LookupIgnoresPadding(store: Json, pre: string, id: string, post: string)
    requires Strings.AllSpace(pre) && Strings.AllSpace(post)
    ensures GetTestDataById(store, pre + id + post) == GetTestDataById(store, id)
  {
    Strings.TrimIgnoresPadding(pre, id, post);
  }

  /**
   * A test stored from a `tests` array is found again by its key, padded or
   * not, provided it is the last element with that key and truthy.
   */
  lemma LookupConvertedTest(items: seq<Json>, i: nat, pre: string, post: string)
    requires NoNulls(items) && i < |items| && LastWithKey(items, i)
    requires Strings.Trim(KeyFor(items[i], i)) == KeyFor(items[i], i)
    requires Strings.AllSpace(pre) && Strings.AllSpace(post)
    ensures Truthy(Some(items[i])) ==> GetTestDataById(Obj(Build(items)), pre + KeyFor(items[i], i) + post) == Ok(items[i])
    ensures !Truthy(Some(items[i])) ==>
              GetTestDataById(Obj(Build(items)), pre + KeyFor(items[i], i) + post) == Err(NotFound(KeyFor(items[i], i)))
  {
    BuildContents(items);
    LookupIgnoresPadding(Obj(Build(items)), pre, KeyFor(items[i], i), post);
  }

  /**
   * A key with surrounding white space is never looked up: whatever id is
   * asked for, `getTestDataById` reads the trimmed id, which cannot be it.
   */
  lemma PaddedKeyUnreachable(store: Json, k: string, id: string)
    requires Strings.Trim(k) != k
    ensures Strings.Trim(id) != k
    ensures !store.Null? && GetTestDataById(store, id).Err? ==> GetTestDataById(store, id).error != NotFound(k)
  {
    Strings.TrimIdempotent(id);
  }

  /** `getAllTestIds`: `Object.keys` of the store. */
  function GetAllTestIds(store: Json): (r: Result<seq<string>, Fault>)
    ensures store.Null? <==> r.Err?
    ensures r.Ok? ==> r.value == OwnKeys(store)
  {
    if store.Null? then Err(TypeError) else Ok(OwnKeys(store))
  }

  /** The ids that contain `pattern`, in their original order. */
  function Matching(ids: seq<string>, pattern: string): (r: seq<string>)
    ensures |r| <= |ids|
    ensures forall x :: x in r <==> x in ids && Strings.Contains(x, pattern)
  {
    if |ids| == 0 then []
    else
      var rest := Matching(ids[1..], pattern);
      assert ids == [ids[0]] + ids[1..];
      if Strings.Includes(ids[0], pattern) then [ids[0]] + rest else rest
  }

  /** Filtering a concatenation filters each part in turn, so kept ids stay in order. */
  lemma {:induction false} MatchingAppend(a: seq<string>, b: seq<string>, pattern: string)
    ensures Matching(a + b, pattern) == Matching(a, pattern) + Matching(b, pattern)
  {
    if |a| > 0 {
      assert (a + b)[0] == a[0] && (a + b)[1..] == a[1..] + b;
      MatchingAppend(a[1..], b, pattern);
    } else {
      assert a + b == b;
    }
  }

  /** A single id is kept exactly when it contains the pattern. */
  lemma MatchingOne(x: string, pattern: string)
    ensures Matching([x], pattern) == if Strings.Contains(x, pattern) then [x] else []
  {
    assert [x][1..] == [];
  }

  /** Each matching id is kept as many times as it occurs; the rest are dropped. */
  lemma {:induction false} MatchingCounts(ids: seq<string>, pattern: string)
    ensures forall x :: multiset(Matching(ids, pattern))[x] == if Strings.Contains(x, pattern) then multiset(ids)[x] else 0
  {
    if |ids| > 0 {
      MatchingCounts(ids[1..], pattern);
      assert ids == [ids[0]] + ids[1..];
    }
  }

  /** `filterTestsByPattern`. */
  function FilterTestsByPattern(store: Json, pattern: string): (r: Result<seq<string>, Fault>)
    ensures store.Null? <==> r.Err?
    ensures r.Ok? ==> forall x :: x in r.value <==> x in OwnKeys(store) && Strings.Contains(x, pattern)
    ensures r.Ok? ==> |r.value| <= |OwnKeys(store)|
    ensures r.Ok? ==> r.value == Matching(OwnKeys(store), pattern)
  {
    match GetAllTestIds(store)
    case Err(e) => Err(e)
    case Ok(ids) => Ok(Matching(ids, pattern))
  }

  /** The empty pattern keeps every id, in order. */
  lemma {:induction false} MatchingEmpty(ids: seq<string>)
    ensures Matching(ids, "") == ids
  {
    if |ids| > 0 {
      Strings.IncludesEmpty(ids[0]);
      assert Matching(ids, "") == [ids[0]] + Matching(ids[1..], "");
      MatchingEmpty(ids[1..]);
      assert ids == [ids[0]] + ids[1..];
    }
  }

  /** The first exception among lookup outcomes, in order. */
  function FirstFailure(rs: seq<Result<Json, Fault>>): (e: Option<Fault>)
    ensures e.None? <==> forall i :: 0 <= i < |rs| ==> rs[i].Ok?
    ensures e.Some? ==> exists i :: 0 <= i < |rs| && rs[i] == Err(e.value) && forall j :: 0 <= j < i ==> rs[j].Ok?
  {
    if |rs| == 0 then None
    else if rs[0].Err? then Some(rs[0].error)
    else
      var e := FirstFailure(rs[1..]);
      assert e.Some? ==> exists i :: 0 <= i < |rs| && rs[i] == Err(e.value) && forall j :: 0 <= j < i ==> rs[j].Ok? by {
        if e.Some? {
          var i :| 0 <= i < |rs[1..]| && rs[1..][i] == Err(e.value) && forall j :: 0 <= j < i ==> rs[1..][j].Ok?;
          assert rs[i + 1] == Err(e.value);
          forall j | 0 <= j < i + 1 ensures rs[j].Ok? {
            if j > 0 { assert rs[j] == rs[1..][j - 1]; }
          }
        }
      }
      e
  }

  /**
   * Collects per-id lookup outcomes: the first failure is rethrown,
   * otherwise id `ids[i]` is assigned the value of `rs[i]`, in order.
   */
  function Gather(ids: seq<string>, rs: seq<Result<Json, Fault>>): (r: Result<seq<Field>, Fault>)
    requires |ids| == |rs|
    ensures r.Ok? <==> forall i :: 0 <= i < |rs| ==> rs[i].Ok?
    ensures r.Ok? ==> forall k :: k in Keys(r.value) <==> k in ids
    ensures r.Err? ==> exists i :: 0 <= i < |rs| && rs[i] == Err(r.error) && forall j :: 0 <= j < i ==> rs[j].Ok?
  {
    match FirstFailure(rs)
    case Some(e) => Err(e)
    case None =>
      var vs := seq(|rs|, i requires 0 <= i < |rs| => rs[i].value);
      AssembleKeys(ids, vs);
      Ok(Assemble(ids, vs))
  }

  /** When equal ids always have equal outcomes, every id holds its own outcome's value. */
  lemma GatherValues(ids: seq<string>, rs: seq<Result<Json, Fault>>, i: nat)
    requires |ids| == |rs| && i < |ids|
    requires Gather(ids, rs).Ok?
    requires forall a, b :: 0 <= a < |ids| && 0 <= b < |ids| && ids[a] == ids[b] ==> rs[a] == rs[b]
    ensures Get(Gather(ids, rs).value, ids[i]) == Some(rs[i].value)
  {
    var vs := seq(|rs|, j requires 0 <= j < |rs| => rs[j].value);
    AssembleConsistent(ids, vs, i);
  }

  /** `getTestDataById` of every requested id, in order. */
  function Lookups(store: Json, ids: seq<string>): (rs: seq<Result<Json, Fault>>)
    ensures |rs| == |ids|
    ensures forall i :: 0 <= i < |ids| ==> rs[i] == GetTestDataById(store, ids[i])
  {
    seq(|ids|, i requires 0 <= i < |ids| => GetTestDataById(store, ids[i]))
  }

  /**
   * `getMultipleTestData`: ids are looked up in order and the first failing
   * lookup throws; otherwise each id as given (untrimmed) is a key.
   */
  function GetMultipleTestData(store: Json, ids: seq<string>): (r: Result<seq<Field>, Fault>)
    ensures r.Ok? <==> forall i :: 0 <= i < |ids| ==> GetTestDataById(store, ids[i]).Ok?
    ensures r.Ok? ==> forall k :: k in Keys(r.value) <==> k in ids
    ensures r.Err? ==> exists i :: 0 <= i < |ids| && GetTestDataById(store, ids[i]) == Err(r.error) &&
                          forall j :: 0 <= j < i ==> GetTestDataById(store, ids[j]).Ok?
  {
    var rs := Lookups(store, ids);
    Gather(ids, rs)
  }

  /** The last of the first `n` positions that holds the key at position `i`. */
  function LastAt(ks: seq<string>, i: nat, n: nat): (m: nat)
    requires i < n <= |ks|
    ensures i <= m < n && ks[m] == ks[i]
    ensures forall j :: m < j < n ==> ks[j] != ks[i]
    decreases n
  {
    if ks[n - 1] == ks[i] then n - 1 else LastAt(ks, i, n - 1)
  }

  /** When equal keys always carry equal values, every key holds its own value. */
  lemma AssembleConsistent(ks: seq<string>, vs: seq<Json>, i: nat)
    requires |ks| == |vs| && i < |ks|
    requires forall a, b :: 0 <= a < |ks| && 0 <= b < |ks| && ks[a] == ks[b] ==> vs[a] == vs[b]
    ensures Get(Assemble(ks, vs), ks[i]) == Some(vs[i])
  {
    var m := LastAt(ks, i, |ks|);
    AssembleLastWins(ks, vs, m);
  }

  /** On success every id, as given, maps to what `getTestDataById` returns for it. */
  lemma MultipleValues(store: Json, ids: seq<string>, i: nat)
    requires GetMultipleTestData(store, ids).Ok? && i < |ids|
    ensures Get(GetMultipleTestData(store, ids).value, ids[i]) == Some(GetTestDataById(store, ids[i]).value)
  {
    GatherValues(ids, Lookups(store, ids), i);
  }

  // ---------------------------------------------------------------------
  // validateTestData

  /** Some key starts with `TC` or `EDGE`. */
  function HasCaseKey(keys: seq<string>): (b: bool)
    ensures b <==> exists i :: 0 <= i < |keys| && (Strings.StartsWith(keys[i], "TC") || Strings.StartsWith(keys[i], "EDGE"))
  {
    if |keys| == 0 then false
    else
      var rest := HasCaseKey(keys[1..]);
      assert rest <==> exists i :: 1 <= i < |keys| && (Strings.StartsWith(keys[i], "TC") || Strings.StartsWith(keys[i], "EDGE")) by {
        if rest {
          var i :| 0 <= i < |keys[1..]| && (Strings.StartsWith(keys[1..][i], "TC") || Strings.StartsWith(keys[1..][i], "EDGE"));
          assert keys[i + 1] == keys[1..][i];
        }
        if exists i :: 1 <= i < |keys| && (Strings.StartsWith(keys[i], "TC") || Strings.StartsWith(keys[i], "EDGE")) {
          var i :| 1 <= i < |keys| && (Strings.StartsWith(keys[i], "TC") || Strings.StartsWith(keys[i], "EDGE"));
          assert keys[1..][i - 1] == keys[i];
        }
      }
      Strings.StartsWith(keys[0], "TC") || Strings.StartsWith(keys[0], "EDGE") || rest
  }

  /**
   * `validateTestData`: anything but an object (arrays included, since
   * `typeof [] === 'object'`) is rejected; an object is valid when it has a
   * test-case key or a truthy `testData`/`tests` field.
   */
  function ValidateTestData(data: Json): (r: Validation)
    ensures !(data.Obj? || data.Arr?) ==> r == Invalid(NotAnObject)
    ensures data.Obj? || data.Arr? ==>
              (r.Valid? <==>
                 (exists k :: k in OwnKeys(data) && (Strings.StartsWith(k, "TC") || Strings.StartsWith(k, "EDGE")))
                 || Truthy(Prop(data, "testData")) || Truthy(Prop(data, "tests")))
    ensures data.Obj? || data.Arr? ==> r.Invalid? ==> r.message == BadFormat
  {
    if !(data.Obj? || data.Arr?) then Invalid(NotAnObject)
    else
      var keys := OwnKeys(data);
      var hasCases := HasCaseKey(keys);
      assert hasCases <==> exists k :: k in keys && (Strings.StartsWith(k, "TC") || Strings.StartsWith(k, "EDGE")) by {
        if hasCases {
          var i :| 0 <= i < |keys| && (Strings.StartsWith(keys[i], "TC") || Strings.StartsWith(keys[i], "EDGE"));
          assert keys[i] in keys;
        }
      }
      if !hasCases && !Truthy(Prop(data, "testData")) && !Truthy(Prop(data, "tests")) then Invalid(BadFormat)
      else Valid
  }
}

=== FILE: test_parser.dfy ===
/**
 * The result flattener of TestParser.js: it walks Playwright's JSON report
 * (suite → spec → test → attempt) and produces one record per test, keeping
 * only the last attempt and attaching failure diagnostics and a bounded
 * screenshot excerpt.
 *
 * Reading and parsing `test-results.json` is abstracted into `ReportFile`;
 * the screenshot files on disk are a map from (resolved) path to the file's
 * base64 encoding.
 */
module TestParser {
  import opened Common
  import Strings

  datatype ErrorInfo = ErrorInfo(message: Option<string>, stack: Option<string>)

  datatype Attachment = Attachment(name: string, path: Option<string>)

  /** One execution of a test (the first run or a retry). */
  datatype Attempt = Attempt(status: string, error: Option<ErrorInfo>, attachments: seq<Attachment>)

  datatype Test = Test(results: seq<Attempt>)

  datatype Spec = Spec(title: string, tests: seq<Test>)

  /** A missing `specs` or `suites` array is the empty sequence. */
  datatype Suite = Suite(specs: seq<Spec>, suites: seq<Suite>)

  /** `test-results.json` as read: unreadable or not JSON, or a report. */
  datatype ReportFile = Unreadable | Report(suites: seq<Suite>)

  /** The screenshot files on disk, by resolved path, as base64 text. */
  type Disk = map<string, string>

  /** The `error` field of a record: absent, the explicit `null`, or a copy. */
  datatype ErrorField = Omitted | NullError | Copied(message: Option<string>, stack: Option<string>)

  datatype Record = Record(testCaseId: string, status: string, error: ErrorField, screenshot: Option<string>)

  datatype Payload = Payload(projectId: string, tests: seq<Record>)

  /**
   * What `parseResults` yields: `null` for an unreadable file, a thrown
   * TypeError for a test without attempts, or the payload.
   */
  datatype ParseOutcome = NoPayload | Crashed | Parsed(payload: Payload)

  /** A (spec, test) pair in the order `collectTests` pushes them. */
  datatype Entry = Entry(spec: Spec, test: Test)

  const ProjectId := "123"
  const Failed := "failed"
  const ScreenshotName := "screenshot"
  const ExcerptLength := 1000
  const Ellipsis := "..."
  const MisspeltDir := "test-resultts"
  const ResultsDir := "test-results"

  /** The entries of one suite's own specs, spec by spec, test by test. */
  function SpecEntries(specs: seq<Spec>): seq<Entry>
  {
    if |specs| == 0 then []
    else seq(|specs[0].tests|, i requires 0 <= i < |specs[0].tests| => Entry(specs[0], specs[0].tests[i]))
         + SpecEntries(specs[1..])
  }

  /** `collectTests`: depth-first, each suite's own specs before its child suites. */
  function Collect(suites: seq<Suite>): seq<Entry>
    decreases suites
  {
    if |suites| == 0 then []
    else SpecEntries(suites[0].specs) + Collect(suites[0].suites) + Collect(suites[1..])
  }

  /** The number of `tests` entries across all specs, independent of any order. */
  function TestCount(suites: seq<Suite>): nat
    decreases suites
  {
    if |suites| == 0 then 0
    else SpecTestCount(suites[0].specs) + TestCount(suites[0].suites) + TestCount(suites[1..])
  }

  function SpecTestCount(specs: seq<Spec>): nat
  {
    if |specs| == 0 then 0 else |specs[0].tests| + SpecTestCount(specs[1..])
  }

  /** `getLastResult`: the last attempt decides. */
  function LastAttempt(t: Test): Attempt
    requires |t.results| > 0
  {
    t.results[|t.results| - 1]
  }

  /** `spec.title.split(' ')[0]`. */
  function TestCaseId(title: string): (id: string)
    ensures id <= title
    ensures ' ' !in id
    ensures |id| == |title| || title[|id|] == ' '
  {
    Strings.Before(title, ' ')
  }

  /** The first attachment named `screenshot`, as `Array.prototype.find` returns it. */
  function FindScreenshot(atts: seq<Attachment>): (r: Option<Attachment>)
    ensures r.Some? ==> r.value in atts && r.value.name == ScreenshotName
    ensures r.None? <==> forall i :: 0 <= i < |atts| ==> atts[i].name != ScreenshotName
    ensures r.Some? ==> exists i :: 0 <= i < |atts| && atts[i] == r.value &&
                          forall j :: 0 <= j < i ==> atts[j].name != ScreenshotName
  {
    if |atts| == 0 then None
    else if atts[0].name == ScreenshotName then Some(atts[0])
    else
      var r := FindScreenshot(atts[1..]);
      assert r.Some? ==> exists i :: 0 <= i < |atts| && atts[i] == r.value &&
                          forall j :: 0 <= j < i ==> atts[j].name != ScreenshotName by {
        if r.Some? {
          var i :| 0 <= i < |atts[1..]| && atts[1..][i] == r.value &&
                   forall j :: 0 <= j < i ==> atts[1..][j].name != ScreenshotName;
          assert atts[i + 1] == r.value;
          forall j | 0 <= j < i + 1 ensures atts[j].name != ScreenshotName {
            if j > 0 { assert atts[j] == atts[1..][j - 1]; }
          }
        }
      }
      r
  }

  /** The path fix-up: the first `test-resultts` becomes `test-results`. */
  function CorrectPath(p: string): (r: string)
    ensures !Strings.Contains(p, MisspeltDir) ==> r == p
    ensures Strings.Contains(p, MisspeltDir) ==>
              |r| == |p| - 1 &&
              exists i :: Strings.OccursAt(p, MisspeltDir, i) &&
                (forall j :: 0 <= j < i ==> !Strings.OccursAt(p, MisspeltDir, j)) &&
                r == p[..i] + ResultsDir + p[i + |MisspeltDir|..]
  {
    Strings.ReplaceFirst(p, MisspeltDir, ResultsDir)
  }

  /** A base64 excerpt: at most 1000 characters, then `...` when cut. */
  function Excerpt(b64: string): (r: string)
    ensures |b64| <= ExcerptLength ==> r == b64
    ensures |b64| > ExcerptLength ==> |r| == ExcerptLength + |Ellipsis|
    ensures |b64| > ExcerptLength ==> r[..ExcerptLength] == b64[..ExcerptLength] && r[ExcerptLength..] == Ellipsis
  {
    if |b64| > ExcerptLength then b64[..ExcerptLength] + Ellipsis else b64
  }

  /** The `screenshot` field of a failed record, when one can be attached. */
  function Screenshot(a: Attempt, disk: Disk): (r: Option<string>)
    ensures r.Some? ==> |r.value| <= ExcerptLength + |Ellipsis|
    ensures r.Some? <==>
              exists att, p :: att in a.attachments && FindScreenshot(a.attachments) == Some(att) &&
                att.path == Some(p) && p != "" && CorrectPath(p) in disk
    ensures r.Some? ==>
              exists att, p :: FindScreenshot(a.attachments) == Some(att) && att.path == Some(p) &&
                CorrectPath(p) in disk && r.value == Excerpt(disk[CorrectPath(p)])
  {
    match FindScreenshot(a.attachments)
    case None => None
    case Some(att) =>
      match att.path
      case None => None
      case Some(p) =>
        if p != "" && CorrectPath(p) in disk then Some(Excerpt(disk[CorrectPath(p)])) else None
  }

  /** The per-test payload built from a collected entry. */
  function MakeRecord(e: Entry, disk: Disk): (r: Record)
    requires |e.test.results| > 0
    ensures r.testCaseId == TestCaseId(e.spec.title)
    ensures r.status == LastAttempt(e.test).status
    ensures r.status != Failed ==> r.error == Omitted && r.screenshot == None
    ensures r.status == Failed ==>
              r.error == match LastAttempt(e.test).error
                         case None => NullError
                         case Some(info) => Copied(info.message, info.stack)
    ensures r.status == Failed ==> r.screenshot == Screenshot(LastAttempt(e.test), disk)
  {
    var a := LastAttempt(e.test);
    var id := TestCaseId(e.spec.title);
    if a.status != Failed then Record(id, a.status, Omitted, None)
    else
      var err := match a.error
                 case None => NullError
                 case Some(info) => Copied(info.message, info.stack);
      Record(id, a.status, err, Screenshot(a, disk))
  }

  /** Every collected test has at least one attempt to take the status from. */
  predicate AllAttempted(es: seq<Entry>)
  {
    forall i :: 0 <= i < |es| ==> |es[i].test.results| > 0
  }

  /** `parseResults`. */
  function ParseResults(file: ReportFile, disk: Disk): (r: ParseOutcome)
    ensures file.Unreadable? <==> r.NoPayload?
    ensures r.Crashed? <==> file.Report? && !AllAttempted(Collect(file.suites))
    ensures r.Parsed? ==> r.payload.projectId == ProjectId
    ensures r.Parsed? ==>
              var es := Collect(file.suites);
              |r.payload.tests| == |es| &&
              forall i :: 0 <= i < |es| ==> r.payload.tests[i] == MakeRecord(es[i], disk)
  {
    match file
    case Unreadable => NoPayload
    case Report(suites) =>
      var es := Collect(suites);
      if !AllAttempted(es) then Crashed
      else Parsed(Payload(ProjectId, seq(|es|, i requires 0 <= i < |es| => MakeRecord(es[i], disk))))
  }

  // ---------------------------------------------------------------------
  // Properties of the traversal

  lemma {:induction false} SpecEntriesCount(specs: seq<Spec>)
    ensures |SpecEntries(specs)| == SpecTestCount(specs)
  {
    if |specs| > 0 {
      SpecEntriesCount(specs[1..]);
    }
  }

  /** No test is dropped or duplicated: one entry per `tests` element. */
  lemma {:induction false} CollectCount(suites: seq<Suite>)
    ensures |Collect(suites)| == TestCount(suites)
    decreases suites
  {
    if |suites| > 0 {
      SpecEntriesCount(suites[0].specs);
      CollectCount(suites[0].suites);
      CollectCount(suites[1..]);
    }
  }

  /** `e` pairs one of `specs` with one of that spec's tests. */
  ghost predicate InSpecs(specs: seq<Spec>, e: Entry)
  {
    exists j, k :: 0 <= j < |specs| && 0 <= k < |specs[j].tests| && specs[j] == e.spec && specs[j].tests[k] == e.test
  }

  /** `e` is a (spec, test) pair of some suite at any depth below `suites`. */
  ghost predicate InTree(suites: seq<Suite>, e: Entry)
    decreases suites
  {
    exists i :: 0 <= i < |suites| && (InSpecs(suites[i].specs, e) || InTree(suites[i].suites, e))
  }

  lemma InSpecsCons(specs: seq<Spec>, e: Entry)
    requires |specs| > 0
    ensures InSpecs(specs, e) <==>
              (e.spec == specs[0] && exists k :: 0 <= k < |specs[0].tests| && specs[0].tests[k] == e.test) ||
              InSpecs(specs[1..], e)
  {
    if InSpecs(specs, e) {
      var j, k :| 0 <= j < |specs| && 0 <= k < |specs[j].tests| && specs[j] == e.spec && specs[j].tests[k] == e.test;
      if j > 0 {
        assert specs[1..][j - 1] == specs[j];
      }
    }
    if InSpecs(specs[1..], e) {
      var j, k :| 0 <= j < |specs[1..]| && 0 <= k < |specs[1..][j].tests| && specs[1..][j] == e.spec && specs[1..][j].tests[k] == e.test;
      assert specs[j + 1] == specs[1..][j];
    }
  }

  lemma InTreeCons(suites: seq<Suite>, e: Entry)
    requires |suites| > 0
    ensures InTree(suites, e) <==>
              InSpecs(suites[0].specs, e) || InTree(suites[0].suites, e) || InTree(suites[1..], e)
  {
    if InTree(suites, e) {
      var i :| 0 <= i < |suites| && (InSpecs(suites[i].specs, e) || InTree(suites[i].suites, e));
      if i > 0 {
        assert suites[1..][i - 1] == suites[i];
      }
    }
    if InTree(suites[1..], e) {
      var i :| 0 <= i < |suites[1..]| && (InSpecs(suites[1..][i].specs, e) || InTree(suites[1..][i].suites, e));
      assert suites[i + 1] == suites[1..][i];
    }
  }

  lemma {:induction false} SpecEntriesMembers(specs: seq<Spec>, e: Entry)
    ensures e in SpecEntries(specs) <==> InSpecs(specs, e)
  {
    if |specs| > 0 {
      var ts := specs[0].tests;
      var own := seq(|ts|, i requires 0 <= i < |ts| => Entry(specs[0], ts[i]));
      assert SpecEntries(specs) == own + SpecEntries(specs[1..]);
      SpecEntriesMembers(specs[1..], e);
      InSpecsCons(specs, e);
      if e in own {
        var i :| 0 <= i < |own| && own[i] == e;
        assert ts[i] == e.test;
      }
      if e.spec == specs[0] && exists k :: 0 <= k < |ts| && ts[k] == e.test {
        var k :| 0 <= k < |ts| && ts[k] == e.test;
        assert own[k] == e;
      }
    }
  }

  /**
   * The traversal reaches every test of every spec in every suite at any
   * depth, and yields nothing else.
   */
  lemma {:induction false} CollectMembers(suites: seq<Suite>, e: Entry)
    ensures e in Collect(suites) <==> InTree(suites, e)
    decreases suites
  {
    if |suites| > 0 {
      SpecEntriesMembers(suites[0].specs, e);
      CollectMembers(suites[0].suites, e);
      CollectMembers(suites[1..], e);
      InTreeCons(suites, e);
    }
  }

  /** Sibling order is preserved: a list of suites flattens piecewise. */
  lemma {:induction false} CollectAppend(a: seq<Suite>, b: seq<Suite>)
    ensures Collect(a + b) == Collect(a) + Collect(b)
    decreases a
  {
    if |a| == 0 {
      assert a + b == b;
    } else {
      assert (a + b)[0] == a[0];
      assert (a + b)[1..] == a[1..] + b;
      CollectAppend(a[1..], b);
    }
  }

  /** The size of a suite forest, a termination measure for the worklist traversal. */
  function ForestSize(suites: seq<Suite>): nat
    decreases suites
  {
    if |suites| == 0 then 0 else 1 + ForestSize(suites[0].suites) + ForestSize(suites[1..])
  }

  lemma {:induction false} ForestSizeAppend(a: seq<Suite>, b: seq<Suite>)
    ensures ForestSize(a + b) == ForestSize(a) + ForestSize(b)
    decreases a
  {
    if |a| == 0 {
      assert a + b == b;
    } else {
      assert (a + b)[0] == a[0];
      assert (a + b)[1..] == a[1..] + b;
      ForestSizeAppend(a[1..], b);
    }
  }

  /**
   * The same flattening with an explicit worklist instead of recursion:
   * it produces exactly the depth-first order of `Collect`.
   */
  method CollectIteratively(suites: seq<Suite>) returns (es: seq<Entry>)
    ensures es == Collect(suites)
  {
    es := [];
    var work := suites;
    while |work| > 0
      invariant es + Collect(work) == Collect(suites)
      decreases ForestSize(work)
    {
      WorklistStep(work);
      var s := work[0];
      var own := SpecEntries(s.specs);
      var next := s.suites + work[1..];
      assert es + Collect(work) == (es + own) + Collect(next);
      es := es + own;
      work := next;
    }
  }

  /** Expanding the head of a worklist keeps the flattening and shrinks the forest. */
  lemma {:induction false} WorklistStep(work: seq<Suite>)
    requires |work| > 0
    ensures Collect(work) == SpecEntries(work[0].specs) + Collect(work[0].suites + work[1..])
    ensures ForestSize(work[0].suites + work[1..]) < ForestSize(work)
  {
    var s, rest := work[0], work[1..];
    assert work == [s] + rest;
    SuiteOrder(s, rest);
    CollectAppend(s.suites, rest);
    ForestSizeAppend(s.suites, rest);
  }

  /** Earlier attempts (retries) never influence a record. */
  lemma RetriesDiscarded(spec: Spec, earlier: seq<Attempt>, other: seq<Attempt>, last: Attempt, disk: Disk)
    ensures MakeRecord(Entry(spec, Test(earlier + [last])), disk) == MakeRecord(Entry(spec, Test(other + [last])), disk)
  {
    assert LastAttempt(Test(earlier + [last])) == last;
    assert LastAttempt(Test(other + [last])) == last;
  }

  /** A title `"<id> <rest>"` yields `<id>` back when the id has no space. */
  lemma TestCaseIdOfTitle(id: string, rest: string)
    requires ' ' !in id
    ensures TestCaseId(id + " " + rest) == id
  {
    var t := id + " " + rest;
    var r := TestCaseId(t);
    assert t[|id|] == ' ';
    assert |r| == |id|;
    assert t[..|id|] == id;
  }

  /**
   * Only the first misspelt directory name is corrected: a path that starts
   * with it keeps whatever follows, later misspellings included.
   */
  lemma CorrectPathAtStart(rest: string)
    ensures CorrectPath(MisspeltDir + rest) == ResultsDir + rest
  {
    var p := MisspeltDir + rest;
    assert p[..|MisspeltDir|] == MisspeltDir;
    assert Strings.OccursAt(p, MisspeltDir, 0);
    assert p[|MisspeltDir|..] == rest;
  }

  /** A suite contributes its own specs' tests first, then its children's. */
  lemma {:induction false} SuiteOrder(s: Suite, rest: seq<Suite>)
    ensures Collect([s] + rest) == SpecEntries(s.specs) + Collect(s.suites) + Collect(rest)
  {
    assert ([s] + rest)[1..] == rest;
  }
}
